=== FILE: README.md ===
# EioI2cInputs, modelled in Dafny

`EioI2cInputs` (extras/eio_i2c_inputs.py) makes an I2C GPIO expander look like a
microcontroller's input subsystem to Klipper's `buttons` module. Three parts are modelled:

- **Configuration.** The buttons module talks to the device as it would to an MCU:
  - it registers config callbacks;
  - it creates OIDs;
  - it queues `config_buttons`, `buttons_add` and `buttons_query` commands;
  - it registers a `buttons_state` response callback;
  - it looks up the `buttons_ack` command.

  At configuration time the device runs the callbacks. It then interprets the queued
  config commands, followed by the init commands. This builds a per-OID mapping from
  button positions to expander pins, and issues one pin setup per button.
- **Polling.** At run time an interrupt-pin level drives a poll timer. Each poll reads
  all pins. When the reading changed, it advances a one-byte acknowledgement counter
  and sends every registered callback the OID's state word:
  - bit `i` of the word is bit `mapping[i]` of the reading;
  - the timer keeps re-arming itself while the interrupt level stays set;
  - a `_timer_running` flag keeps a second read from being started while one is in
    flight.
- **The reactor.** An abstract Klipper reactor models how the device is driven.

## Layout

| file | module | contents |
|---|---|---|
| `results.dfy` | `Results` | `Option` and `Result`. `PinsError` is `pins.error`; `Fault` covers the Python exceptions the source lets escape (IndexError, KeyError, ValueError). |
| `pytext.dfy` | `PyText` | These Python 3 (3.6 or later) string operations: `str.split()` over Python's whitespace set, `split('=', 1)`, `int()` on a token, and `str()` of an integer. |
| `commands.dfy` | `Commands` | The three commands as a datatype, the parser with the source's error order, and the rendering of a command back to text. |
| `bits.dfy` | `Bits` | `(x >> k) & 1` on unbounded integers, and the per-OID state word. |
| `inputs.dfy` | `Inputs` | The device record, the OID registry, `add_config_cmd`, `register_response`, `lookup_command`, the interpreter and `_build_inputs_config`. |
| `polling.dfy` | `Polling` | `_ready`, `_handle_interrupt`, `_schedule_update`, `_interrupt_update_event` and `_invoke_buttons_callbacks`, and a `_ready` guarded like `_handle_interrupt`. |
| `host.dfy` | `Host` | The device inside an abstract reactor. This is where the no-overlapping-reads and no-lost-interrupt properties are stated. |
| `scenarios.dfy` | `Scenarios` | Worked examples: a two-button group built through a config callback, the readings it reports, rejected inputs, the counter wrap, and the timer cycle. |

### How the model is organised

- **Pure functions.** Each operation is a pure function on an immutable `State`. It
  returns the new state, or `Err` where Python raises.
- **Foreign hooks.** `read_input_pins` becomes the `pins` parameter. Each call to
  `setup_input_pin` becomes a `PinSetup` record in the step's output, in call order.
- **Config callbacks.** A config callback is modelled as the script of calls it makes
  back into the device (`HostCall`).
- **Notifications.** A `buttons_state` notification that the source queues with
  `register_async_callback` becomes a `Notification` value in the poll's result.
- **The timer event.** `_interrupt_update_event` is split at its call to
  `read_input_pins`:
  - `PollStart` raises the flag;
  - `PollFinish` does the rest.

  This split lets `Host` model an interrupt that arrives while a read is in flight.

### Behaviour of the code worth knowing

- **Out-of-range `oid`/`pos` in `config_buttons`, `buttons_add` and
  `register_response`.** The code has no range check of its own, so these raise
  Python's IndexError. Negative values index from the end of the list, as Python lists
  do (`PyIndex`). An OID that was created but never configured has an empty mapping, so
  a `buttons_add` for it fails the same way.
- **The bad-pin message.** A pin token without the `PIN_` prefix raises
  `Wrong pin: <first four characters>!`.
- **Malformed tokens raise plain Python errors:**
  - an argument without `=`: ValueError, when the dict is built;
  - a missing key: KeyError;
  - a non-integer value: ValueError;
  - an empty command or format: IndexError.

  The argument dict is built before the command name is looked at. So an unknown
  command with a malformed argument fails with ValueError, not with the unsupported-
  command error.
- **The wake-up trigger.** An immediate poll is requested for every non-zero interrupt
  level reported while no poll is in progress, including a level reported as set twice
  in a row.
- **Unset slots.** A mapping slot left at `-1` is not checked before polling. The
  first changed reading raises ValueError in the dispatcher, because Python refuses a
  negative shift count. The state word is computed for every OID, with or without a
  callback.
- **Order within the timer event.** The flag is cleared after the dispatch, and the
  new reading is recorded after the counter is advanced. Nothing can observe either
  order, because the part after the read runs without yielding.
- **`pull_up`.** It is passed to the pin setup as the integer `int()` gave.
  `buttons_query` needs no arguments.
- **`_ready` has no guard.** It sets the timer to NOW even while a read is in flight
  (see Findings).

## Model

| member | source | states |
|---|---|---|
| PyText.Split | extras/eio_i2c_inputs.py:75 | `cmd.split()`: every part is a non-empty run of characters that are not Python whitespace |
| PyText.SplitWord | extras/eio_i2c_inputs.py:75 | a whitespace-free non-empty text splits into itself alone |
| PyText.SplitAppend | extras/eio_i2c_inputs.py:75 | when whitespace ends the first text or starts the second, splitting their concatenation is splitting each and concatenating the parts |
| PyText.SplitSeparated | extras/eio_i2c_inputs.py:75 | any whitespace character separates: splitting `a + [c] + b` gives the parts of `a` followed by those of `b`; with SplitWord this fixes the parts as the maximal non-whitespace runs, in order |
| PyText.SplitJoin | extras/eio_i2c_inputs.py:75 | splitting a single-space join of whitespace-free tokens gives the tokens back |
| PyText.SplitKeyValue | extras/eio_i2c_inputs.py:77 | `arg.split('=', 1)` fails to give a pair exactly when the token has no '='; otherwise it gives the text before the first '=' (`KeyOf`) and the text after it (`ValueOf`) |
| PyText.SplitKeyValueOf | extras/eio_i2c_inputs.py:77 | a key without '=' comes back whole, and everything after the first '=' is the value |
| PyText.PyIntOfIntString | extras/eio_i2c_inputs.py:80-90 | `int(str(i)) == i` for every integer, the parse the commands rely on (no digit-count limit; see Left out) |
| Commands.ParseArgsInto | extras/eio_i2c_inputs.py:77 | building the argument dict succeeds exactly when every argument contains '=' |
| Commands.ParseArgsKeys | extras/eio_i2c_inputs.py:77 | the dict's keys are exactly the keys already present plus each argument's text before its first '=' |
| Commands.ParseArgsLastWins | extras/eio_i2c_inputs.py:77 | a key given more than once maps to the value of its last occurrence |
| Commands.ParseArgsKeeps | extras/eio_i2c_inputs.py:77 | a key no argument names keeps the value it had |
| Commands.ParseArgsContents | extras/eio_i2c_inputs.py:77 | the dict's keys are exactly the arguments' keys (those before the first '='); each key maps to the value of its last occurrence |
| Commands.Lookup | extras/eio_i2c_inputs.py:80-88 | `argparts[key]` gives the value when the key is present and KeyError when it is not |
| Commands.IntValue | extras/eio_i2c_inputs.py:80-90 | `int(text)` succeeds exactly when the text is an integer literal, and raises ValueError otherwise |
| Commands.ParseNamed | extras/eio_i2c_inputs.py:78-97 | a parsed command has the name it was parsed under; the only `pins.error`s are the unsupported name and the bad pin prefix |
| Commands.ParseCommand | extras/eio_i2c_inputs.py:75-97 | an empty command raises IndexError and nothing else does; a success is named by the first token and has a well-formed dict; every `pins.error` is an unsupported name or a `buttons_add` whose pin lacks `PIN_` |
| Commands.ParseRender | extras/eio_i2c_inputs.py:74-95 | every command rendered as `name key=value ...` parses back to itself |
| Commands.UnsupportedRejected | extras/eio_i2c_inputs.py:96-97 | with a well-formed dict, any name other than the three raises "Command is not supported by I2C inputs: <name>" |
| Commands.WrongPinRejected | extras/eio_i2c_inputs.py:88-89 | a `buttons_add` whose pin token lacks `PIN_` raises "Wrong pin: <first four characters>!" |
| Bits.Bit | extras/eio_i2c_inputs.py:161 | `(x >> k) & 1` is always 0 or 1 |
| Bits.BitIsShift | extras/eio_i2c_inputs.py:161 | the bit is `(x // 2**k) % 2`, Python's floor shift, for negative `x` too |
| Bits.StateWord | extras/eio_i2c_inputs.py:159-161 | the state word of a mapping of length n is below 2**n |
| Bits.StateWordBit | extras/eio_i2c_inputs.py:159-161 | bit i of the state word is bit `mapping[i]` of the reading |
| Bits.StateWordUnique | extras/eio_i2c_inputs.py:159-161 | the state word is the only number below 2**n with those bits |
| Inputs.PyIndex | extras/eio_i2c_inputs.py:82 | a list index of a list of length n is accepted exactly from -n to n-1; a non-negative i names slot i and a negative i names slot n+i |
| Inputs.CreateOid | extras/eio_i2c_inputs.py:102-105 | the new OID is the number created before; it gets an empty mapping and no callback; the existing entries and everything else are unchanged; the two lists stay the same length |
| Inputs.CreateOidsConsecutive | extras/eio_i2c_inputs.py:102-105 | successive `create_oid` calls return consecutive OIDs, starting from the count already created, and keep the two lists in step |
| Inputs.RegisterConfigCallback | extras/eio_i2c_inputs.py:99-100 | the callback is appended and nothing else changes |
| Inputs.RegisterResponse | extras/eio_i2c_inputs.py:116-119 | a name other than `buttons_state` raises the `pins.error`; otherwise exactly that OID's slot is set, or IndexError is raised for an OID out of range |
| Inputs.LookupCommand | extras/eio_i2c_inputs.py:121-126 | succeeds exactly when the format's first token is `buttons_ack`; an empty format raises IndexError; any other name raises the `pins.error` quoting the format |
| Inputs.AckFormatAccepted | extras/eio_i2c_inputs.py:121-126 | a format of tokens is accepted exactly when its first token is `buttons_ack`, whatever follows it |
| Inputs.ListFor | extras/eio_i2c_inputs.py:67-72 | `is_init` wins over `on_restart`; a command goes to the config list only when neither is set |
| Inputs.AddConfigCmdTo | extras/eio_i2c_inputs.py:66-72 | the chosen list gets the command appended; the other lists and every other field are unchanged |
| Inputs.ConfigButtonsOp | extras/eio_i2c_inputs.py:78-82 | the OID's mapping becomes `count` copies of -1 (none for a negative count); every other OID's mapping and every other field are unchanged; an OID out of range raises IndexError |
| Inputs.ButtonsAddOp | extras/eio_i2c_inputs.py:91 | exactly slot `[oid][pos]` takes the pin; every other slot, of any OID, keeps its value; an index out of range raises IndexError |
| Inputs.Apply | extras/eio_i2c_inputs.py:78-95 | only the mappings change; `buttons_add` issues one setup with its pin and pull-up; `config_buttons` issues none; `buttons_query` changes nothing |
| Inputs.InterpretInitCmd | extras/eio_i2c_inputs.py:74-97 | a parse error is raised unchanged; on success only the mappings change and the OID count stays |
| Inputs.InterpretRendered | extras/eio_i2c_inputs.py:74-95 | interpreting a command's text form carries the command out |
| Inputs.ButtonsAddInterpreted | extras/eio_i2c_inputs.py:83-92 | a well-formed `buttons_add` writes `[oid][pos]` and issues exactly one setup with its pull-up flag, or raises IndexError |
| Inputs.ButtonsAddOverwrites | extras/eio_i2c_inputs.py:91 | writing the same slot twice is the same as writing only the second pin |
| Inputs.ButtonsAddLastWins | extras/eio_i2c_inputs.py:83-92 | two `buttons_add` commands for one slot keep the later pin, and both setups are issued in order |
| Inputs.QueryChangesNothing | extras/eio_i2c_inputs.py:93-95 | `buttons_query` with any `key=value` arguments leaves the state as it was and issues no setup |
| Inputs.InterpretAll | extras/eio_i2c_inputs.py:63-65 | interpreting a list changes only the mappings and keeps the OID count |
| Inputs.InterpretAllAppend | extras/eio_i2c_inputs.py:63-65 | interpreting two lists one after the other is interpreting their concatenation, and it stops at the first exception |
| Inputs.RunCall | extras/eio_i2c_inputs.py:59-60 | a callback's call into the device keeps the two lists in step, the callback list, and the run-time fields |
| Inputs.RunCallback | extras/eio_i2c_inputs.py:59-60 | the same for a whole callback |
| Inputs.RunCallbacks | extras/eio_i2c_inputs.py:59-60 | the same for every callback in turn |
| Inputs.RunCallbackQueues | extras/eio_i2c_inputs.py:59-60 | a callback extends each command list by exactly its `add_config_cmd` calls filed under that list, in call order |
| Inputs.BuildInputsConfig | extras/eio_i2c_inputs.py:57-65 | the build keeps the two lists in step and leaves the counter, levels and flag as they were |
| Inputs.BuildInputsConfigOrder | extras/eio_i2c_inputs.py:57-65 | the build runs the callbacks, then interprets the config list followed by the init list, as the callbacks left them |
| Inputs.RestartCmdsNeverInterpreted | extras/eio_i2c_inputs.py:63-70 | whatever the restart list holds, the build raises the same error, or issues the same setups and leaves the same state apart from that list |
| Polling.Notifications | extras/eio_i2c_inputs.py:158-170 | one notification per OID with a callback, in strictly ascending OID order; each has that OID's callback, the same counter and time, and `[state word]` |
| Polling.NotificationsCover | extras/eio_i2c_inputs.py:158-170 | no OID holding a callback is skipped |
| Polling.InvokeButtonsCallbacks | extras/eio_i2c_inputs.py:155-170 | the counter advances by one mod 256 and every callback is sent the new value; a negative slot anywhere raises ValueError instead |
| Polling.HandleInterrupt | extras/eio_i2c_inputs.py:46-55 | the level is always recorded; a poll is requested exactly when the level is non-zero and no poll is in progress |
| Polling.ScheduleUpdate | extras/eio_i2c_inputs.py:43-44 | `_ready` always sets the timer to NOW |
| Polling.GuardedReady | extras/eio_i2c_inputs.py:43-55 | the corrected `_ready`: it asks for NOW exactly when no read is in flight, as `_handle_interrupt` does |
| Polling.PollStart | extras/eio_i2c_inputs.py:139 | the overlap flag is raised before the read and nothing else changes |
| Polling.PollFinish | extras/eio_i2c_inputs.py:140-153 | the wake is NOW exactly when the last level is non-zero; the flag is clear on return; the reading is recorded; a repeated reading sends nothing and keeps the counter; a changed one advances it by one mod 256 and notifies; ValueError exactly when a changed reading meets an unset slot |
| Polling.InterruptUpdateEvent | extras/eio_i2c_inputs.py:138-153 | the whole timer event: the wake is NOW exactly when the level is set, and the flag is false on return |
| Polling.RepeatedReadingIsQuiet | extras/eio_i2c_inputs.py:142 | polling the same reading again sends nothing and leaves the state unchanged |
| Polling.FirstReadingDispatches | extras/eio_i2c_inputs.py:34 | because the last reading starts at -1, the first non-negative reading reaches every registered callback with the next counter value |
| Polling.RegisteredCallbackNotified | extras/eio_i2c_inputs.py:116-119 | a callback registered for an OID receives the next changed reading, with that OID, the new counter and the OID's state word |
| Polling.PollAll | extras/eio_i2c_inputs.py:138-153 | a series of polls keeps the mappings and callbacks |
| Polling.AckCountsChanges | extras/eio_i2c_inputs.py:142-157 | over any series of readings, the counter moves once per reading that differs from the one before, mod 256, however many OIDs are notified |
| Host.Start | extras/eio_i2c_inputs.py:32-35 | the poll timer is registered disarmed and no read is in flight |
| Host.BuiltDeviceStarts | extras/eio_i2c_inputs.py:25-35 | a device fresh from construction and a build that filled every slot satisfies the reactor invariant |
| Host.Next | extras/eio_i2c_inputs.py:43-55 | every reactor event, a ready event at any moment included, preserves the invariant: the flag mirrors a read in flight; the timer is never armed during a read; a set level with no read in flight always has a poll pending |
| Host.ReadyAsWritten | extras/eio_i2c_inputs.py:43-44 | the unguarded `_ready` arms the timer whether or not a read is in flight |
| Host.ReadyDuringReadOverlaps | extras/eio_i2c_inputs.py:43-55 | from any idle host, an interrupt report, the poll it arms and then the unguarded ready leave the timer armed while the read is in flight, which breaks the invariant |
| Host.After | extras/eio_i2c_inputs.py:138-153 | the invariant holds after any run the reactor can produce |
| Host.ReadsNeverOverlap | extras/eio_i2c_inputs.py:48-55 | along any run, the timer never fires while a read is in flight |
| Host.InterruptNeverLost | extras/eio_i2c_inputs.py:146-150 | along any run, a level set while no read is in flight always has a poll pending, including a level that arrived during a read |
| Host.PollParksWhenIdle | extras/eio_i2c_inputs.py:151-153 | a poll that finishes with the level cleared leaves the timer at NEVER |
| Scenarios.ScriptRuns | extras/eio_i2c_inputs.py:66-126 | a callback making the calls of Klipper's `buttons` module creates OID 0, files `config_buttons` in the config list and both `buttons_add` commands and the `buttons_query` in the init list, passes the `buttons_ack` lookup, and registers its listener |
| Scenarios.QueryPass | extras/eio_i2c_inputs.py:93-95 | the module's full `buttons_query oid=0 clock=0 ...` command changes nothing |
| Scenarios.InitPass | extras/eio_i2c_inputs.py:63-65 | the init list, run on the group the config list created, maps both positions and issues both setups |
| Scenarios.ScenarioBuild | extras/eio_i2c_inputs.py:57-92 | for any pins p and q, the build creates the group from the config list before the init list's buttons fill it, maps positions 0 and 1 to p and q, and sets both pins up in order with their pull-ups |
| Scenarios.LastPoll | extras/eio_i2c_inputs.py:142-153 | once the level clears, the pending poll of an unchanged reading sends nothing and parks the timer |
| Scenarios.TimerCycle | extras/eio_i2c_inputs.py:46-170 | an active level arms the timer; a poll with the level still set re-arms it and reports the reading once; a poll after the level clears parks the timer and reports nothing |
| Scenarios.ScenarioStateWord | extras/eio_i2c_inputs.py:159-161 | pins 0b101000 with mapping [3, 5] give state word 3 |
| Scenarios.MappingReorders | extras/eio_i2c_inputs.py:159-161 | mapping [3, 5, 1] puts pin 3 in bit 0 and pin 1 in bit 2; a reading of -1 gives every bit set, since Python's `>>` rounds down |
| Scenarios.FooBarRejected | extras/eio_i2c_inputs.py:96-97 | `foo_bar` raises "Command is not supported by I2C inputs: foo_bar" |
| Scenarios.BareNumberRejected | extras/eio_i2c_inputs.py:88-89 | a pin given as a bare decimal number is always refused |
| Scenarios.BarePinRejected | extras/eio_i2c_inputs.py:88-89 | pin token `5` raises "Wrong pin: 5!" |
| Scenarios.AckWraps | extras/eio_i2c_inputs.py:157 | the counter wraps from 255 to 0, and the notifications carry 0 |

## Left out

- The Klipper wiring in `__init__` is not modelled (extras/eio_i2c_inputs.py:17-23, 32, 37-42). This covers the config lookups, the I2C bus object, registering `_build_inputs_config` with the MCU, registering the interrupt pin with the buttons module, and the `klippy:ready` handler. It is host plumbing. `Host` assumes these registrations as the events it delivers.
- `read_input_pins` and `setup_input_pin` are overridable hooks that reach hardware. The reading is a parameter. The setups are recorded as `PinSetup` values in call order.
- `register_async_callback` is not modelled. Notifications are returned as a list in the order they are queued. When and how the reactor later runs them is not modelled.
- `logging.debug` calls are not modelled. They have no effect on state.
- `alloc_command_queue`, `get_query_slot` and `seconds_to_clock` are not modelled. They return the constants None, 0 and 0 and touch no state.
- `EioI2cInputsSendAck.send` is not modelled. It discards its arguments, so `lookup_command`'s result is the plain value `AckSender`.
- The Python assumed is Python 3, 3.6 or later: `str` whitespace is Python 3's `str.isspace()` set, and `int()` accepts single underscores between digits.
- Commands.IntValue: digits are ASCII only, although Python's `int()` also accepts other Unicode decimal digits. The integer-string length limit of CPython 3.11 and the security releases 3.7.14, 3.8.14, 3.9.14 and 3.10.7 is not modelled either: those refuse `int()` on a literal of more than 4300 digits with ValueError, and the model accepts it.
- PyText.PyIntOfIntString: `int(str(i)) == i` is proved for every integer. On the CPython versions with the 4300-digit limit, `str(i)` itself raises ValueError for an `i` of more than 4300 digits, so there the round trip holds only below that size. The digits are ASCII only, as for Commands.IntValue.
- Inputs.ConfigButtonsOp: the count is unbounded. In Python, `[-1] * count` raises OverflowError for a count above `sys.maxsize`, and MemoryError long before that. The model instead returns a mapping of that length.
- The state after an exception is not modelled. When Python raises, the mutations made before the raise stay in the object: earlier commands, or a counter already advanced. The model returns only the error. At configuration time the exception aborts Klipper's startup. In the timer event it escapes the reactor.
- Config callbacks are modelled through the calls they make into this device with `add_config_cmd`, `create_oid`, `register_response` and `lookup_command`. Their effects on other objects are not modelled.
- Inputs.RunCallbacks: a callback that calls `register_config_callback` during the build is not modelled. `HostCall` has no such call, and the callback list is walked as it was when the build began. In Python, `for cb in self._config_callbacks` (extras/eio_i2c_inputs.py:59) also runs callbacks appended during the loop. A script that kept registering callbacks would make the build run without end.
- Polling.InvokeButtonsCallbacks: when an OID with a negative slot raises ValueError, Python has already queued the `register_async_callback` notifications of every lower OID that has a callback, and the reactor still delivers them. The model returns only the error, so those notifications are dropped. Polling.PollFinish and Polling.InterruptUpdateEvent inherit this.
- Valid (the two per-OID lists having the same length) is required by the run-time functions. `create_oid` is the only operation that grows either list and it grows both, so the source never breaks this.
- The reactor is modelled abstractly, as Klipper's reactor behaves:
  - a timer whose callback is running is held at NEVER;
  - the callback's return value becomes its next wake time;
  - the code after `read_input_pins` runs without yielding.
- Host.Next: a `klippy:ready` during a read follows the corrected, guarded `_ready` (`Polling.GuardedReady`). The source's unguarded handler is `Host.ReadyAsWritten`, and it breaks the invariant (see Findings).
- Host.After: the invariant over every run holds for the guarded `_ready` only, for the same reason.
- Host.InterruptNeverLost: holds for the guarded `_ready` only. With the source's `_ready`, a second read can start while one is in flight (`Host.ReadyDuringReadOverlaps`), and a `Host` record, which tracks one outstanding read, cannot represent that run.
- Host.ReadsNeverOverlap: reads never overlap with the guarded `_ready`. With the source's `_ready`, a ready event during a read can start a second read (`Host.ReadyDuringReadOverlaps`).
- Polling.PollAll: all polls in a series share one event time, which is enough for the counter property.
- Several devices sharing a reactor are not modelled. Each instance owns its own state.

## Findings

| source | as written | input that shows it | evidently intended | confidence | as-written member | corrected member |
|---|---|---|---|---|---|---|
| extras/eio_i2c_inputs.py:43-44 | `_ready` calls `_schedule_update` without looking at `_timer_running` | an interrupt report with level 1 arms the poll, the poll starts its read, and `klippy:ready` arrives before the read returns: the timer is set to NOW while the read is in flight, and can fire a second, overlapping read | `_ready`, like `_handle_interrupt` (lines 48-55), schedules only while no read is in flight | not executed; low, because it needs Klipper to deliver `klippy:ready` while a timer callback waits on the I2C read | Host.ReadyDuringReadOverlaps | Host.ReadsNeverOverlap |

=== FILE: bits.dfy ===
/** The per-OID button state word of `_invoke_buttons_callbacks`
    (extras/eio_i2c_inputs.py:159-161): bit i of the word is bit `mapping[i]` of the
    raw pin reading. */
module Bits {

  function Pow2(n: nat): (p: nat)
    ensures p >= 1
  {
    if n == 0 then 1 else 2 * Pow2(n - 1)
  }

  /** `(x >> k) & 1` on Python's unbounded integers. Halving with Dafny's `/` floors,
      as Python's `>>` does, so a negative `x` reads as its infinite two's complement. */
  function Bit(x: int, k: nat): (b: int)
    ensures b == 0 || b == 1
    decreases k
  {
    if k == 0 then x % 2 else Bit(x / 2, k - 1)
  }

  lemma DivUnique(x: int, d: int, q: int, r: int)
    requires d > 0 && 0 <= r < d && x == d * q + r
    ensures x / d == q && x % d == r
  {
    var q', r' := x / d, x % d;
    assert d * (q - q') == r' - r;
    if q - q' >= 1 {
      MulAtLeast(d, q - q');
    } else if q' - q >= 1 {
      MulAtLeast(d, q' - q);
    }
  }

  lemma MulAtLeast(d: int, n: int)
    requires d > 0 && n >= 1
    ensures d * n >= d
  {
    assert d * n == d + d * (n - 1);
  }

  lemma {:induction false} DivPow2Step(x: int, k: nat)
    ensures (x / 2) / Pow2(k) == x / Pow2(k + 1)
  {
    var q := x / 2;
    var r := x % 2;
    var q2 := q / Pow2(k);
    var r2 := q % Pow2(k);
    assert x == 2 * q + r;
    assert q == Pow2(k) * q2 + r2;
    assert x == Pow2(k + 1) * q2 + (2 * r2 + r);
    DivUnique(x, Pow2(k + 1), q2, 2 * r2 + r);
  }

  /** `Bit` agrees with the closed form `(x / 2^k) % 2` of an arithmetic right shift. */
  lemma {:induction false} BitIsShift(x: int, k: nat)
    ensures Bit(x, k) == (x / Pow2(k)) % 2
    decreases k
  {
    if k > 0 {
      BitIsShift(x / 2, k - 1);
      DivPow2Step(x, k - 1);
    }
  }

  /** Every slot of a mapping holds a physical pin index Python can shift by. */
  predicate Mapped(mapping: seq<int>) {
    forall i :: 0 <= i < |mapping| ==> mapping[i] >= 0
  }

  /** The state word: position 0 is the least-significant bit. */
  function StateWord(pins: int, mapping: seq<int>): (w: nat)
    requires Mapped(mapping)
    ensures w < Pow2(|mapping|)
  {
    if |mapping| == 0 then 0
    else Bit(pins, mapping[0]) + 2 * StateWord(pins, mapping[1..])
  }

  /** Bit i of the state word is bit `mapping[i]` of the raw pins. */
  lemma {:induction false} StateWordBit(pins: int, mapping: seq<int>, i: nat)
    requires Mapped(mapping)
    requires i < |mapping|
    ensures Bit(StateWord(pins, mapping), i) == Bit(pins, mapping[i])
  {
    var w := StateWord(pins, mapping);
    var rest := StateWord(pins, mapping[1..]);
    DivUnique(w, 2, rest, Bit(pins, mapping[0]));
    if i > 0 {
      StateWordBit(pins, mapping[1..], i - 1);
    }
  }

  /** The state word is the only number below 2^|mapping| with those bits: it is the
      mapping's remapped reading and nothing else. */
  lemma {:induction false} StateWordUnique(pins: int, mapping: seq<int>, w: int)
    requires Mapped(mapping)
    requires 0 <= w < Pow2(|mapping|)
    requires forall i :: 0 <= i < |mapping| ==> Bit(w, i) == Bit(pins, mapping[i])
    ensures w == StateWord(pins, mapping)
  {
    if |mapping| == 0 {
    } else {
      var tail := mapping[1..];
      assert Bit(w, 0) == Bit(pins, mapping[0]);
      forall i | 0 <= i < |tail|
        ensures Bit(w / 2, i) == Bit(pins, tail[i])
      {
        assert Bit(w, i + 1) == Bit(pins, mapping[i + 1]);
      }
      StateWordUnique(pins, tail, w / 2);
    }
  }
}

=== FILE: commands.dfy ===
/** The parser stage of the command interpreter (`_interpret_init_cmd`, extras/eio_i2c_inputs.py):
    a whitespace-separated text command with `key=value` arguments becomes a `Command`,
    or the exception the source raises while reading it. Indexing into the pin registry
    happens afterwards, in module Inputs, exactly as the source reads every argument
    before touching the registry. */
module Commands {
  import opened Results
  import opened PyText

  /** The three commands the device understands. */
  datatype Command =
    | ConfigButtons(oid: int, count: int)
    | ButtonsAdd(oid: int, pos: int, pullUp: int, pin: int)
    | ButtonsQuery

  const PinPrefix: string := "PIN_"

  function CommandName(c: Command): string {
    match c
    case ConfigButtons(_, _) => "config_buttons"
    case ButtonsAdd(_, _, _, _) => "buttons_add"
    case ButtonsQuery => "buttons_query"
  }

  /** Folds the arguments into `m` left to right; a repeated key keeps its last value. */
  function ParseArgsInto(m: map<string, string>, args: seq<string>): (r: Option<map<string, string>>)
    ensures r.Some? <==> forall k :: 0 <= k < |args| ==> '=' in args[k]
    ensures r.Some? ==> m.Keys <= r.value.Keys
    decreases |args|
  {
    if |args| == 0 then Some(m)
    else
      var kv :- SplitKeyValue(args[0]);
      ParseArgsInto(m[kv.0 := kv.1], args[1..])
  }

  /** The keys the arguments `args` name. */
  function ArgKeys(args: seq<string>): set<string> {
    set k | 0 <= k < |args| :: KeyOf(args[k])
  }

  /** No later argument than `args[k]` has its key. */
  predicate LastWithKey(args: seq<string>, k: int)
    requires 0 <= k < |args|
  {
    forall j :: k < j < |args| ==> KeyOf(args[j]) != KeyOf(args[k])
  }

  lemma ArgKeysCons(args: seq<string>)
    requires |args| > 0
    ensures ArgKeys(args) == {KeyOf(args[0])} + ArgKeys(args[1..])
  {
    var rest := args[1..];
    forall key | key in ArgKeys(args) ensures key in {KeyOf(args[0])} + ArgKeys(rest) {
      var k :| 0 <= k < |args| && KeyOf(args[k]) == key;
      if k > 0 { assert rest[k - 1] == args[k]; }
    }
    forall key | key in ArgKeys(rest) ensures key in ArgKeys(args) {
      var k :| 0 <= k < |rest| && KeyOf(rest[k]) == key;
      assert args[k + 1] == rest[k];
    }
  }

  /** The last argument with some key is also the last one with it among the later
      arguments; the first argument is last with its key only when no later argument
      names it. */
  lemma LastWithKeyCons(args: seq<string>, k: int)
    requires 0 <= k < |args| && LastWithKey(args, k)
    ensures k == 0 ==> KeyOf(args[0]) !in ArgKeys(args[1..])
    ensures k > 0 ==> args[1..][k - 1] == args[k] && LastWithKey(args[1..], k - 1)
  {
    var rest := args[1..];
    if k == 0 {
      forall j | 0 <= j < |rest| ensures KeyOf(rest[j]) != KeyOf(args[0]) {
        assert rest[j] == args[j + 1];
      }
    } else {
      forall j | k - 1 < j < |rest| ensures KeyOf(rest[j]) != KeyOf(rest[k - 1]) {
        assert rest[j] == args[j + 1];
      }
    }
  }

  /** The folded dict's keys are those of `m` and of every argument. */
  lemma {:induction false} ParseArgsKeys(m: map<string, string>, args: seq<string>)
    requires ParseArgsInto(m, args).Some?
    ensures ParseArgsInto(m, args).value.Keys == m.Keys + ArgKeys(args)
    decreases |args|
  {
    if |args| == 0 {
      assert ArgKeys(args) == {};
    } else {
      var key0 := KeyOf(args[0]);
      assert SplitKeyValue(args[0]) == Some((key0, ValueOf(args[0])));
      ParseArgsKeys(m[key0 := ValueOf(args[0])], args[1..]);
      ArgKeysCons(args);
    }
  }

  /** A key of `m` that no argument names keeps its value. */
  lemma {:induction false} ParseArgsKeeps(m: map<string, string>, args: seq<string>, key: string)
    requires ParseArgsInto(m, args).Some?
    requires key in m && key !in ArgKeys(args)
    ensures key in ParseArgsInto(m, args).value && ParseArgsInto(m, args).value[key] == m[key]
    decreases |args|
  {
    if |args| > 0 {
      var key0 := KeyOf(args[0]);
      assert SplitKeyValue(args[0]) == Some((key0, ValueOf(args[0])));
      ArgKeysCons(args);
      ParseArgsKeeps(m[key0 := ValueOf(args[0])], args[1..], key);
    }
  }

  /** An argument's key maps to the value of its last occurrence. */
  lemma {:induction false} ParseArgsLastWins(m: map<string, string>, args: seq<string>, k: int)
    requires ParseArgsInto(m, args).Some?
    requires 0 <= k < |args| && LastWithKey(args, k)
    ensures KeyOf(args[k]) in ParseArgsInto(m, args).value
    ensures ParseArgsInto(m, args).value[KeyOf(args[k])] == ValueOf(args[k])
    decreases |args|
  {
    var key0, value0 := KeyOf(args[0]), ValueOf(args[0]);
    assert SplitKeyValue(args[0]) == Some((key0, value0));
    var m' := m[key0 := value0];
    assert ParseArgsInto(m, args) == ParseArgsInto(m', args[1..]);
    LastWithKeyCons(args, k);
    if k == 0 {
      ParseArgsKeeps(m', args[1..], key0);
    } else {
      ParseArgsLastWins(m', args[1..], k - 1);
    }
  }

  /** What the folded dict holds: the keys of `m` and of every argument; an argument's
      key maps to the value of its last occurrence; a key of `m` that no argument names
      keeps its value. */
  lemma ParseArgsContents(m: map<string, string>, args: seq<string>)
    requires ParseArgsInto(m, args).Some?
    ensures ParseArgsInto(m, args).value.Keys == m.Keys + ArgKeys(args)
    ensures forall k :: 0 <= k < |args| && LastWithKey(args, k) ==>
              && KeyOf(args[k]) in ParseArgsInto(m, args).value
              && ParseArgsInto(m, args).value[KeyOf(args[k])] == ValueOf(args[k])
    ensures forall key :: key in m && key !in ArgKeys(args) ==>
              key in ParseArgsInto(m, args).value && ParseArgsInto(m, args).value[key] == m[key]
  {
    ParseArgsKeys(m, args);
    forall k | 0 <= k < |args| && LastWithKey(args, k)
      ensures KeyOf(args[k]) in ParseArgsInto(m, args).value
      ensures ParseArgsInto(m, args).value[KeyOf(args[k])] == ValueOf(args[k])
    {
      ParseArgsLastWins(m, args, k);
    }
    forall key | key in m && key !in ArgKeys(args)
      ensures key in ParseArgsInto(m, args).value && ParseArgsInto(m, args).value[key] == m[key]
    {
      ParseArgsKeeps(m, args, key);
    }
  }

  /** `dict(arg.split('=', 1) for arg in args)`; None where that raises ValueError. */
  function ParseArgs(args: seq<string>): Option<map<string, string>> {
    ParseArgsInto(map[], args)
  }

  /** `args[key]`, raising KeyError when the key is missing. */
  function Lookup(args: map<string, string>, key: string): (r: Result<string>)
    ensures r.Ok? <==> key in args
    ensures r.Err? ==> r.error == Fault(KeyError)
    ensures r.Ok? ==> r.value == args[key]
  {
    if key in args then Ok(args[key]) else Err(Fault(KeyError))
  }

  /** `int(text)`, raising ValueError when the text is not an integer literal. */
  function IntValue(text: string): (r: Result<int>)
    ensures r.Ok? <==> PyInt(text).Some?
    ensures r.Err? ==> r.error == Fault(ValueError)
    ensures r.Ok? ==> r.value == PyInt(text).value
  {
    match PyInt(text)
    case Some(v) => Ok(v)
    case None => Err(Fault(ValueError))
  }

  /** `int(args[key])`. */
  function IntArg(args: map<string, string>, key: string): Result<int> {
    var text :- Lookup(args, key);
    IntValue(text)
  }

  /** `t[0:4] == "PIN_"`; a shorter token has a shorter slice and fails. */
  predicate HasPinPrefix(t: string) {
    |t| >= 4 && t[..4] == PinPrefix
  }

  /** `t[0:4]`, the part of a rejected pin token the error message quotes. */
  function Head4(t: string): string {
    if |t| <= 4 then t else t[..4]
  }

  function WrongPinMessage(t: string): string {
    "Wrong pin: " + Head4(t) + "!"
  }

  function UnsupportedMessage(name: string): string {
    "Command is not supported by I2C inputs: " + name
  }

  /** `config_buttons`: `oid` then `button_count`. */
  function ParseConfigButtons(args: map<string, string>): Result<Command> {
    var oid :- IntArg(args, "oid");
    var count :- IntArg(args, "button_count");
    Ok(ConfigButtons(oid, count))
  }

  /** `buttons_add`: `oid`, `pos`, `pull_up`, then the pin token, whose prefix is
      checked before its remainder is read as an integer. */
  function ParseButtonsAdd(args: map<string, string>): Result<Command> {
    var oid :- IntArg(args, "oid");
    var pos :- IntArg(args, "pos");
    var pullUp :- IntArg(args, "pull_up");
    var pinToken :- Lookup(args, "pin");
    if !HasPinPrefix(pinToken) then Err(PinsError(WrongPinMessage(pinToken)))
    else
      var pin :- IntValue(pinToken[4..]);
      Ok(ButtonsAdd(oid, pos, pullUp, pin))
  }

  /** The command a name and its parsed arguments denote. */
  function ParseNamed(name: string, args: map<string, string>): (r: Result<Command>)
    ensures r.Ok? ==> CommandName(r.value) == name
    ensures r.Err? ==> r.error != Fault(IndexError)
    ensures r.Err? && r.error.PinsError? ==>
              || r.error.message == UnsupportedMessage(name)
              || (name == "buttons_add" && "pin" in args && !HasPinPrefix(args["pin"]))
  {
    if name == "config_buttons" then ParseConfigButtons(args)
    else if name == "buttons_add" then ParseButtonsAdd(args)
    else if name == "buttons_query" then Ok(ButtonsQuery)
    else Err(PinsError(UnsupportedMessage(name)))
  }

  /** Reads one command the way `_interpret_init_cmd` does, up to but excluding the
      registry update: empty text is an IndexError, an argument without '=' is a
      ValueError before the name is even looked at, a missing key is a KeyError, a
      non-integer value is a ValueError, a pin token without the `PIN_` prefix and an
      unknown command name are `pins.error`s. */
  function ParseCommand(cmd: string): (r: Result<Command>)
    ensures r == Err(Fault(IndexError)) <==> |Split(cmd)| == 0
    ensures r.Ok? ==> |Split(cmd)| > 0 && CommandName(r.value) == Split(cmd)[0]
    ensures r.Ok? ==> ParseArgs(Split(cmd)[1..]).Some?
    ensures r.Err? && r.error.PinsError? ==>
              && |Split(cmd)| > 0
              && ParseArgs(Split(cmd)[1..]).Some?
              && (r.error.message == UnsupportedMessage(Split(cmd)[0])
                  || (Split(cmd)[0] == "buttons_add"
                      && "pin" in ParseArgs(Split(cmd)[1..]).value
                      && !HasPinPrefix(ParseArgs(Split(cmd)[1..]).value["pin"])))
  {
    var parts := Split(cmd);
    if |parts| == 0 then Err(Fault(IndexError))
    else
      match ParseArgs(parts[1..])
      case None => Err(Fault(ValueError))
      case Some(args) => ParseNamed(parts[0], args)
  }

  /** Once the text splits into known tokens whose arguments parse, the command is
      determined by the name and the argument map. */
  lemma ParseCommandOf(cmd: string, parts: seq<string>, args: map<string, string>)
    requires Split(cmd) == parts && |parts| > 0
    requires ParseArgs(parts[1..]) == Some(args)
    ensures ParseCommand(cmd) == ParseNamed(parts[0], args)
  {
  }

  /** One `key=value` argument. */
  function Arg(key: string, value: string): string {
    key + "=" + value
  }

  /** The text of `c` in the `key=value` form the interpreter reads. `config_buttons`
      and `buttons_add` carry their arguments in the order Klipper's `buttons` module
      writes them; `buttons_query` is written bare, since its arguments are ignored. */
  function Render(c: Command): string {
    match c
    case ConfigButtons(oid, count) =>
      Join(["config_buttons", Arg("oid", IntString(oid)), Arg("button_count", IntString(count))])
    case ButtonsAdd(oid, pos, pullUp, pin) =>
      Join(["buttons_add", Arg("oid", IntString(oid)), Arg("pos", IntString(pos)),
            Arg("pin", PinPrefix + IntString(pin)), Arg("pull_up", IntString(pullUp))])
    case ButtonsQuery => "buttons_query"
  }

  lemma WordConcat(a: string, b: string)
    requires IsWord(a) && IsWord(b)
    ensures IsWord(a + b)
  {
    assert forall i :: 0 <= i < |a + b| ==> (a + b)[i] == if i < |a| then a[i] else b[i - |a|];
  }

  lemma ArgIsWord(key: string, value: string)
    requires IsWord(key) && IsWord(value)
    ensures IsWord(Arg(key, value))
  {
    assert IsWord("=");
    WordConcat(key, "=");
    WordConcat(key + "=", value);
  }

  lemma ParseArgsStep(m: map<string, string>, key: string, value: string, rest: seq<string>)
    requires '=' !in key
    ensures ParseArgsInto(m, [Arg(key, value)] + rest) == ParseArgsInto(m[key := value], rest)
  {
    SplitKeyValueOf(key, value);
    assert ([Arg(key, value)] + rest)[1..] == rest;
  }

  /** The argument map of a rendered `buttons_add` with pin token `pinToken`. */
  function ButtonsAddArgs(oid: int, pos: int, pullUp: int, pinToken: string): map<string, string> {
    map["oid" := IntString(oid)]["pos" := IntString(pos)]["pin" := pinToken]["pull_up" := IntString(pullUp)]
  }

  function ButtonsAddTokens(oid: int, pos: int, pullUp: int, pinToken: string): seq<string> {
    ["buttons_add", Arg("oid", IntString(oid)), Arg("pos", IntString(pos)),
     Arg("pin", pinToken), Arg("pull_up", IntString(pullUp))]
  }

  /** A single-space join of words parses by its first word and the map of the rest. */
  lemma ParseJoin(ws: seq<string>, args: map<string, string>)
    requires |ws| > 0
    requires forall k :: 0 <= k < |ws| ==> IsWord(ws[k])
    requires ParseArgs(ws[1..]) == Some(args)
    ensures ParseCommand(Join(ws)) == ParseNamed(ws[0], args)
  {
    SplitJoin(ws);
    ParseCommandOf(Join(ws), ws, args);
  }

  lemma ButtonsAddTokensWords(oid: int, pos: int, pullUp: int, pinToken: string)
    requires IsWord(pinToken)
    ensures forall k :: 0 <= k < 5 ==> IsWord(ButtonsAddTokens(oid, pos, pullUp, pinToken)[k])
  {
    assert IsWord("oid") && IsWord("pos") && IsWord("pull_up") && IsWord("pin") && IsWord("buttons_add");
    ArgIsWord("oid", IntString(oid));
    ArgIsWord("pos", IntString(pos));
    ArgIsWord("pull_up", IntString(pullUp));
    ArgIsWord("pin", pinToken);
  }

  lemma ButtonsAddTokensParse(oid: int, pos: int, pullUp: int, pinToken: string)
    ensures ParseArgs(ButtonsAddTokens(oid, pos, pullUp, pinToken)[1..])
            == Some(ButtonsAddArgs(oid, pos, pullUp, pinToken))
  {
    var ts := ButtonsAddTokens(oid, pos, pullUp, pinToken);
    var a2 := Arg("pos", IntString(pos));
    var a3 := Arg("pin", pinToken);
    var a4 := Arg("pull_up", IntString(pullUp));
    var m1 := map["oid" := IntString(oid)];
    var m2 := m1["pos" := IntString(pos)];
    var m3 := m2["pin" := pinToken];
    assert ts[1..] == [Arg("oid", IntString(oid))] + ([a2] + ([a3] + ([a4] + [])));
    ParseArgsStep(map[], "oid", IntString(oid), [a2] + ([a3] + ([a4] + [])));
    ParseArgsStep(m1, "pos", IntString(pos), [a3] + ([a4] + []));
    ParseArgsStep(m2, "pin", pinToken, [a4] + []);
    ParseArgsStep(m3, "pull_up", IntString(pullUp), []);
  }

  lemma ButtonsAddText(oid: int, pos: int, pullUp: int, pinToken: string)
    requires IsWord(pinToken)
    ensures ParseCommand(Join(ButtonsAddTokens(oid, pos, pullUp, pinToken)))
            == ParseButtonsAdd(ButtonsAddArgs(oid, pos, pullUp, pinToken))
  {
    ButtonsAddTokensWords(oid, pos, pullUp, pinToken);
    ButtonsAddTokensParse(oid, pos, pullUp, pinToken);
    ParseJoin(ButtonsAddTokens(oid, pos, pullUp, pinToken), ButtonsAddArgs(oid, pos, pullUp, pinToken));
  }

  lemma ButtonsAddArgsValues(oid: int, pos: int, pullUp: int, pinToken: string)
    ensures IntArg(ButtonsAddArgs(oid, pos, pullUp, pinToken), "oid") == Ok(oid)
    ensures IntArg(ButtonsAddArgs(oid, pos, pullUp, pinToken), "pos") == Ok(pos)
    ensures IntArg(ButtonsAddArgs(oid, pos, pullUp, pinToken), "pull_up") == Ok(pullUp)
    ensures Lookup(ButtonsAddArgs(oid, pos, pullUp, pinToken), "pin") == Ok(pinToken)
  {
    PyIntOfIntString(oid);
    PyIntOfIntString(pos);
    PyIntOfIntString(pullUp);
  }

  lemma ConfigButtonsWords(oid: int, count: int)
    ensures forall k :: 0 <= k < 3 ==>
              IsWord(["config_buttons", Arg("oid", IntString(oid)), Arg("button_count", IntString(count))][k])
  {
    assert IsWord("oid") && IsWord("button_count") && IsWord("config_buttons");
    ArgIsWord("oid", IntString(oid));
    ArgIsWord("button_count", IntString(count));
  }

  lemma ConfigButtonsParse(oid: int, count: int)
    ensures ParseArgs([Arg("oid", IntString(oid)), Arg("button_count", IntString(count))])
            == Some(map["oid" := IntString(oid)]["button_count" := IntString(count)])
  {
    var a1 := Arg("oid", IntString(oid));
    var a2 := Arg("button_count", IntString(count));
    assert [a1, a2] == [a1] + ([a2] + []);
    ParseArgsStep(map[], "oid", IntString(oid), [a2] + []);
    ParseArgsStep(map["oid" := IntString(oid)], "button_count", IntString(count), []);
  }

  lemma QueryRenderParses()
    ensures ParseCommand(Render(ButtonsQuery)) == Ok(ButtonsQuery)
  {
    assert IsWord("buttons_query");
    ParseJoin(["buttons_query"], map[]);
  }

  lemma ConfigButtonsRenderParses(oid: int, count: int)
    ensures ParseCommand(Render(ConfigButtons(oid, count))) == Ok(ConfigButtons(oid, count))
  {
    ConfigButtonsWords(oid, count);
    ConfigButtonsParse(oid, count);
    var args := map["oid" := IntString(oid)]["button_count" := IntString(count)];
    ParseJoin(["config_buttons", Arg("oid", IntString(oid)), Arg("button_count", IntString(count))], args);
    PyIntOfIntString(oid);
    PyIntOfIntString(count);
    assert IntArg(args, "oid") == Ok(oid);
    assert IntArg(args, "button_count") == Ok(count);
  }

  lemma ButtonsAddRenderParses(oid: int, pos: int, pullUp: int, pin: int)
    ensures ParseCommand(Render(ButtonsAdd(oid, pos, pullUp, pin))) == Ok(ButtonsAdd(oid, pos, pullUp, pin))
  {
    var pinToken := PinPrefix + IntString(pin);
    assert IsWord(PinPrefix);
    WordConcat(PinPrefix, IntString(pin));
    ButtonsAddText(oid, pos, pullUp, pinToken);
    ButtonsAddArgsValues(oid, pos, pullUp, pinToken);
    assert pinToken[..4] == PinPrefix;
    assert pinToken[4..] == IntString(pin);
    PyIntOfIntString(pin);
    assert Render(ButtonsAdd(oid, pos, pullUp, pin)) == Join(ButtonsAddTokens(oid, pos, pullUp, pinToken));
  }

  /** Parsing the rendered text of a command gives the command back. */
  lemma ParseRender(c: Command)
    ensures ParseCommand(Render(c)) == Ok(c)
  {
    match c
    case ButtonsQuery => QueryRenderParses();
    case ConfigButtons(oid, count) => ConfigButtonsRenderParses(oid, count);
    case ButtonsAdd(oid, pos, pullUp, pin) => ButtonsAddRenderParses(oid, pos, pullUp, pin);
  }

  /** Any other command name, with every argument holding a '=', is rejected as unsupported. */
  lemma UnsupportedRejected(cmd: string)
    requires |Split(cmd)| > 0
    requires Split(cmd)[0] !in {"config_buttons", "buttons_add", "buttons_query"}
    requires forall k :: 1 <= k < |Split(cmd)| ==> '=' in Split(cmd)[k]
    ensures ParseCommand(cmd) == Err(PinsError(UnsupportedMessage(Split(cmd)[0])))
  {
    var ws := Split(cmd);
    assert forall k :: 0 <= k < |ws[1..]| ==> '=' in ws[1..][k];
    assert ParseArgs(ws[1..]).Some?;
  }

  /** A `buttons_add` whose pin token lacks the `PIN_` prefix is a `pins.error` quoting
      the token's first four characters, whatever the other arguments are. */
  lemma WrongPinRejected(oid: int, pos: int, pullUp: int, pinToken: string)
    requires IsWord(pinToken) && !HasPinPrefix(pinToken)
    ensures ParseCommand(Join(ButtonsAddTokens(oid, pos, pullUp, pinToken)))
            == Err(PinsError(WrongPinMessage(pinToken)))
  {
    ButtonsAddText(oid, pos, pullUp, pinToken);
    ButtonsAddArgsValues(oid, pos, pullUp, pinToken);
  }
}

=== FILE: host.dfy ===
/** The device inside Klipper's reactor. The reactor runs one timer callback at a
    time per greenlet, but the I2C read in `_interrupt_update_event` waits for the MCU
    and lets other work run meanwhile: an interrupt can arrive while a read is in
    flight, and if the poll timer were re-armed then, the reactor could start a second,
    overlapping read (extras/eio_i2c_inputs.py:48-55). While a timer callback runs the
    reactor holds that timer at NEVER, and when the callback returns its result becomes
    the next wake time. The `Host` record tracks that wake time (`armed` is NOW) and
    whether a read is outstanding. `klippy:ready` is handled by the guarded `_ready`;
    `ReadyDuringReadOverlaps` shows what the unguarded one allows. */
module Host {
  import opened Results
  import opened Inputs
  import opened Polling

  datatype Host = Host(
    dev: State,
    armed: bool,      // the poll timer's wake time is NOW
    reading: bool,    // a timer callback is waiting for `read_input_pins`
    pollTime: real)   // the event time of the poll in progress

  /** What the reactor can deliver to the device. */
  datatype Event =
    | Ready                                // `klippy:ready`
    | Interrupt(time: real, level: int)    // the buttons module reports the interrupt pin
    | Fire(time: real)                     // the armed poll timer runs, up to the read
    | ReadDone(pins: int)                  // the read returns and the callback finishes

  /** Which events can happen: the timer fires only when armed and a read returns only
      when one is outstanding; `klippy:ready` and interrupt reports can come at any time,
      a read in flight included. */
  predicate Enabled(h: Host, e: Event) {
    match e
    case Ready => true
    case Interrupt(_, _) => true
    case Fire(_) => h.armed
    case ReadDone(_) => h.reading
  }

  /** The device's flag mirrors the outstanding read; the timer is never armed while a
      read is outstanding; and whenever no read is outstanding and the interrupt level
      is set, a poll is pending. */
  predicate Inv(h: Host) {
    && Dispatchable(h.dev)
    && (h.reading <==> h.dev.timerRunning)
    && (h.reading ==> !h.armed)
    && (!h.reading && h.dev.lastIrq != 0 ==> h.armed)
  }

  /** The device as the configuration build left it, the timer not yet armed. */
  function Start(dev: State): (h: Host)
    ensures h.dev == dev && !h.armed && !h.reading
  {
    Host(dev, false, false, 0.0)
  }

  /** A device built from the constructor's run-time fields starts in the invariant,
      provided the build filled every mapping slot. */
  lemma BuiltDeviceStarts(s: State)
    requires Valid(s) && SameRuntime(s, Init())
    requires BuildInputsConfig(s).Ok? && Filled(BuildInputsConfig(s).value.state)
    ensures Inv(Start(BuildInputsConfig(s).value.state))
  {
  }

  datatype Moved = Moved(host: Host, notifications: seq<Notification>)

  /** One reactor event. `klippy:ready` runs the guarded `_ready` (`GuardedReady`). */
  function Next(h: Host, e: Event): (r: Moved)
    requires Inv(h) && Enabled(h, e)
    ensures Inv(r.host)
    ensures r.host.dev.pinMap == h.dev.pinMap && r.host.dev.callbacks == h.dev.callbacks
    ensures e.Ready? ==> r.host.dev == h.dev && (r.host.armed <==> h.armed || !h.reading)
    ensures e.Interrupt? ==>
              && r.host.dev == h.dev.(lastIrq := e.level)
              && (r.host.armed <==> h.armed || (e.level != 0 && !h.reading))
    ensures e.Fire? ==> r.host.reading && !r.host.armed && r.host.pollTime == e.time
    ensures e.ReadDone? ==> !r.host.reading && (r.host.armed <==> h.dev.lastIrq != 0)
    ensures e.ReadDone? && e.pins == h.dev.lastPins ==> r.notifications == []
    ensures e.ReadDone? && e.pins != h.dev.lastPins ==>
              r.notifications ==
                Notifications(h.dev.pinMap, h.dev.callbacks, r.host.dev.ackCount, e.pins, h.pollTime, 0)
    ensures !e.ReadDone? ==> r.notifications == []
  {
    match e
    case Ready => Moved(h.(armed := h.armed || GuardedReady(h.dev)), [])
    case Interrupt(_, level) =>
      var i := HandleInterrupt(h.dev, level);
      Moved(h.(dev := i.state, armed := h.armed || i.scheduleNow), [])
    case Fire(t) => Moved(Host(PollStart(h.dev), false, true, t), [])
    case ReadDone(pins) =>
      var p := PollFinish(h.dev, h.pollTime, pins).value;
      Moved(Host(p.state, p.wake == Now, false, h.pollTime), p.notifications)
  }

  /** `es` is a run the reactor can produce from `h`. */
  predicate Runs(h: Host, es: seq<Event>)
    requires Inv(h)
    decreases |es|
  {
    |es| == 0 || (Enabled(h, es[0]) && Runs(Next(h, es[0]).host, es[1..]))
  }

  /** The host after the run `es`. */
  function After(h: Host, es: seq<Event>): (r: Host)
    requires Inv(h) && Runs(h, es)
    ensures Inv(r)
    decreases |es|
  {
    if |es| == 0 then h else After(Next(h, es[0]).host, es[1..])
  }

  /** Along the run, the timer fires only when no read is outstanding. */
  predicate NoOverlap(h: Host, es: seq<Event>)
    requires Inv(h) && Runs(h, es)
    decreases |es|
  {
    |es| == 0 || ((es[0].Fire? ==> !h.reading) && NoOverlap(Next(h, es[0]).host, es[1..]))
  }

  /** Along the run, every host with the interrupt level set and no read outstanding
      has a poll pending. */
  predicate NeverLost(h: Host, es: seq<Event>)
    requires Inv(h) && Runs(h, es)
    decreases |es|
  {
    && (!h.reading && h.dev.lastIrq != 0 ==> h.armed)
    && (|es| == 0 || NeverLost(Next(h, es[0]).host, es[1..]))
  }

  /** The `_timer_running` guard keeps I2C reads from overlapping. */
  lemma {:induction false} ReadsNeverOverlap(h: Host, es: seq<Event>)
    requires Inv(h) && Runs(h, es)
    ensures NoOverlap(h, es)
    decreases |es|
  {
    if |es| > 0 {
      ReadsNeverOverlap(Next(h, es[0]).host, es[1..]);
    }
  }

  /** The guard loses no interrupt: a level that arrives during a read is picked up by
      the NOW the callback returns. */
  lemma {:induction false} InterruptNeverLost(h: Host, es: seq<Event>)
    requires Inv(h) && Runs(h, es)
    ensures NeverLost(h, es)
    decreases |es|
  {
    if |es| > 0 {
      InterruptNeverLost(Next(h, es[0]).host, es[1..]);
    }
  }

  /** `klippy:ready` as the source handles it: `_ready` sets the timer to NOW without
      looking at `_timer_running`. */
  function ReadyAsWritten(h: Host): (r: Host)
    ensures r.armed && r.dev == h.dev && r.reading == h.reading
  {
    h.(armed := ScheduleUpdate() == Now)
  }

  /** With the unguarded `_ready`, the reads can overlap: from any idle host, an
      interrupt report and the poll it arms leave a read in flight, and a ready event
      arriving then arms the timer again, so the reactor may fire it and start a second
      read before the first returns. */
  lemma ReadyDuringReadOverlaps(h: Host, t: real)
    requires Inv(h) && !h.reading
    ensures var h1 := Next(h, Interrupt(t, 1)).host;
            && h1.armed
            && var h2 := Next(h1, Fire(t)).host;
            && h2.reading
            && var h3 := ReadyAsWritten(h2);
            && h3.reading && Enabled(h3, Fire(t)) && !Inv(h3)
  {
  }

  /** A run that ends in a finished poll with the level cleared leaves the timer parked
      at NEVER. */
  lemma PollParksWhenIdle(h: Host, pins: int)
    requires Inv(h) && h.reading && h.dev.lastIrq == 0
    ensures var r := Next(h, ReadDone(pins)).host;
            !r.armed && !r.reading && !r.dev.timerRunning
  {
  }
}

=== FILE: inputs.dfy ===
/** The state of one `EioI2cInputs` device (extras/eio_i2c_inputs.py) and its
    configuration-time operations: the OID registry, the three command lists, the
    config callbacks, and the interpreter that turns commands into pin mappings. */
module Inputs {
  import opened Results
  import opened PyText
  import opened Commands
  import opened Bits

  /** An opaque reference to a callable supplied by the host. */
  type CallbackRef = nat

  /** The acknowledgement counter's range: it is kept with `& 0xff`. */
  type Byte = x: int | 0 <= x < 256

  /** A call a registered config callback makes back into the device when it is run. */
  datatype HostCall =
    | AddConfigCmdCall(cmd: string, isInit: bool, onRestart: bool)
    | CreateOidCall
    | RegisterResponseCall(callback: CallbackRef, name: string, oid: int)
    | LookupCommandCall(msgformat: string)

  /** A config callback, as the calls it makes into the device in order. */
  type ConfigCallback = seq<HostCall>

  datatype State = State(
    initCmds: seq<string>,
    restartCmds: seq<string>,
    configCmds: seq<string>,
    configCallbacks: seq<ConfigCallback>,
    pinMap: seq<seq<int>>,                // position -> physical pin, per OID
    callbacks: seq<Option<CallbackRef>>,  // the `buttons_state` callback, per OID
    ackCount: Byte,
    lastIrq: int,                         // last level reported for the interrupt pin
    lastPins: int,                        // last raw reading; -1 before the first one
    timerRunning: bool)

  /** The mapping slot value that `config_buttons` fills a mapping with. */
  const Unset: int := -1

  /** The state right after construction. */
  function Init(): State {
    State([], [], [], [], [], [], 0, 0, -1, false)
  }

  /** The two per-OID sequences have one entry per created OID. */
  predicate Valid(s: State) {
    |s.pinMap| == |s.callbacks|
  }

  /** Every slot of every mapping holds a physical pin (no `Unset`, nothing negative). */
  predicate Filled(s: State) {
    AllMapped(s.pinMap)
  }

  predicate AllMapped(pinMap: seq<seq<int>>) {
    forall o :: 0 <= o < |pinMap| ==> Mapped(pinMap[o])
  }

  /** The slot Python's `lst[i]` denotes in a list of length n: a negative index counts
      from the end; None where Python raises IndexError. */
  function PyIndex(n: nat, i: int): (r: Option<nat>)
    ensures r.Some? <==> -(n as int) <= i < n
    ensures r.Some? ==> r.value < n && r.value == (if i >= 0 then i else n + i)
  {
    if 0 <= i < n then Some(i)
    else if -(n as int) <= i < 0 then Some(n + i)
    else None
  }

  // ---------------------------------------------------------------- registry

  datatype Created = Created(state: State, oid: nat)

  /** `create_oid`: a new OID with an empty mapping and no callback. */
  function CreateOid(s: State): (r: Created)
    ensures r.oid == |s.pinMap|
    ensures |r.state.pinMap| == r.oid + 1 && r.state.pinMap[r.oid] == []
    ensures |r.state.callbacks| == |s.callbacks| + 1 && r.state.callbacks[|s.callbacks|] == None
    ensures r.state.pinMap[..r.oid] == s.pinMap && r.state.callbacks[..|s.callbacks|] == s.callbacks
    ensures r.state == s.(pinMap := r.state.pinMap, callbacks := r.state.callbacks)
    ensures Valid(s) ==> Valid(r.state)
  {
    var s' := s.(pinMap := s.pinMap + [[]], callbacks := s.callbacks + [None]);
    assert s'.pinMap[..|s.pinMap|] == s.pinMap;
    assert s'.callbacks[..|s.callbacks|] == s.callbacks;
    Created(s', |s.pinMap|)
  }

  /** `n` successive `create_oid` calls; the OIDs they return, in order. */
  function CreateOids(s: State, n: nat): (State, seq<nat>)
    decreases n
  {
    if n == 0 then (s, [])
    else
      var c := CreateOid(s);
      var rest := CreateOids(c.state, n - 1);
      (rest.0, [c.oid] + rest.1)
  }

  /** Successive `create_oid` calls on a valid state return consecutive OIDs, starting
      at the number already created, and keep the two per-OID sequences in step. */
  lemma {:induction false} CreateOidsConsecutive(s: State, n: nat)
    requires Valid(s)
    ensures |CreateOids(s, n).1| == n
    ensures forall i :: 0 <= i < n ==> CreateOids(s, n).1[i] == |s.pinMap| + i
    ensures Valid(CreateOids(s, n).0) && |CreateOids(s, n).0.pinMap| == |s.pinMap| + n
    decreases n
  {
    if n > 0 {
      var c := CreateOid(s);
      CreateOidsConsecutive(c.state, n - 1);
    }
  }

  /** `register_config_callback`. */
  function RegisterConfigCallback(s: State, cb: ConfigCallback): (r: State)
    ensures r.configCallbacks == s.configCallbacks + [cb]
    ensures r == s.(configCallbacks := r.configCallbacks)
  {
    s.(configCallbacks := s.configCallbacks + [cb])
  }

  const ResponseName: string := "buttons_state"
  const ResponseMessage: string := "I2C inputs only supports buttons_state response callback"

  /** `register_response`: only `buttons_state` is accepted, and it sets exactly that
      OID's callback slot. */
  function RegisterResponse(s: State, callback: CallbackRef, name: string, oid: int): (r: Result<State>)
    ensures name != ResponseName ==> r == Err(PinsError(ResponseMessage))
    ensures name == ResponseName ==> (r.Ok? <==> PyIndex(|s.callbacks|, oid).Some?)
    ensures name == ResponseName && r.Err? ==> r.error == Fault(IndexError)
    ensures r.Ok? ==>
              var k := PyIndex(|s.callbacks|, oid).value;
              && |r.value.callbacks| == |s.callbacks|
              && r.value.callbacks[k] == Some(callback)
              && (forall j :: 0 <= j < |s.callbacks| && j != k ==> r.value.callbacks[j] == s.callbacks[j])
              && r.value == s.(callbacks := r.value.callbacks)
  {
    if name != ResponseName then Err(PinsError(ResponseMessage))
    else
      match PyIndex(|s.callbacks|, oid)
      case None => Err(Fault(IndexError))
      case Some(k) => Ok(s.(callbacks := s.callbacks[k := Some(callback)]))
  }

  /** The sender `lookup_command` hands out; sending through it does nothing. */
  datatype AckSender = AckSender

  const AckCommandName: string := "buttons_ack"

  function LookupMessage(msgformat: string): string {
    "I2C inputs does not support '" + msgformat + "' command"
  }

  /** `lookup_command`: only a format whose first token is `buttons_ack` is accepted. */
  function LookupCommand(msgformat: string): (r: Result<AckSender>)
    ensures r.Ok? <==> |Split(msgformat)| > 0 && Split(msgformat)[0] == AckCommandName
    ensures |Split(msgformat)| == 0 ==> r == Err(Fault(IndexError))
    ensures |Split(msgformat)| > 0 && Split(msgformat)[0] != AckCommandName ==>
              r == Err(PinsError(LookupMessage(msgformat)))
  {
    var parts := Split(msgformat);
    if |parts| == 0 then Err(Fault(IndexError))
    else if parts[0] != AckCommandName then Err(PinsError(LookupMessage(msgformat)))
    else Ok(AckSender)
  }

  /** A format of whitespace-free tokens is accepted exactly when its first token is
      `buttons_ack`, whatever argument descriptions follow it. */
  lemma AckFormatAccepted(name: string, rest: seq<string>)
    requires IsWord(name)
    requires forall k :: 0 <= k < |rest| ==> IsWord(rest[k])
    ensures LookupCommand(Join([name] + rest)).Ok? <==> name == AckCommandName
    ensures name != AckCommandName ==>
              LookupCommand(Join([name] + rest)) == Err(PinsError(LookupMessage(Join([name] + rest))))
  {
    var ws := [name] + rest;
    assert forall k :: 0 <= k < |ws| ==> IsWord(ws[k]) by {
      forall k | 0 <= k < |ws| ensures IsWord(ws[k]) {
        if k > 0 { assert ws[k] == rest[k - 1]; }
      }
    }
    SplitJoin(ws);
  }

  // ---------------------------------------------------------------- command lists

  datatype CmdList = InitList | RestartList | ConfigList

  /** The list `add_config_cmd` files a command under: `is_init` wins over `on_restart`. */
  function ListFor(isInit: bool, onRestart: bool): (l: CmdList)
    ensures l == InitList <==> isInit
    ensures l == RestartList <==> !isInit && onRestart
    ensures l == ConfigList <==> !isInit && !onRestart
  {
    if isInit then InitList else if onRestart then RestartList else ConfigList
  }

  function CmdsIn(s: State, l: CmdList): seq<string> {
    match l
    case InitList => s.initCmds
    case RestartList => s.restartCmds
    case ConfigList => s.configCmds
  }

  /** `add_config_cmd`: appends to exactly one list and changes nothing else. */
  function AddConfigCmdTo(s: State, cmd: string, isInit: bool, onRestart: bool): (r: State)
    ensures CmdsIn(r, ListFor(isInit, onRestart)) == CmdsIn(s, ListFor(isInit, onRestart)) + [cmd]
    ensures forall l :: l != ListFor(isInit, onRestart) ==> CmdsIn(r, l) == CmdsIn(s, l)
    ensures r.(initCmds := s.initCmds, restartCmds := s.restartCmds, configCmds := s.configCmds) == s
  {
    if isInit then s.(initCmds := s.initCmds + [cmd])
    else if onRestart then s.(restartCmds := s.restartCmds + [cmd])
    else s.(configCmds := s.configCmds + [cmd])
  }

  function QueuedBy(call: HostCall, l: CmdList): seq<string> {
    if call.AddConfigCmdCall? && ListFor(call.isInit, call.onRestart) == l then [call.cmd] else []
  }

  /** The commands of a script's `add_config_cmd` calls that land in list `l`, in order. */
  function Queued(calls: seq<HostCall>, l: CmdList): seq<string>
    decreases |calls|
  {
    if |calls| == 0 then [] else QueuedBy(calls[0], l) + Queued(calls[1..], l)
  }

  // ---------------------------------------------------------------- interpreter

  /** `config_buttons`: the OID's mapping becomes `count` unset slots (none when
      `count` is negative, as `[-1] * count` gives); nothing else changes. */
  function ConfigButtonsOp(s: State, oid: int, count: int): (r: Result<State>)
    ensures r.Ok? <==> PyIndex(|s.pinMap|, oid).Some?
    ensures r.Err? ==> r.error == Fault(IndexError)
    ensures r.Ok? ==>
              var k := PyIndex(|s.pinMap|, oid).value;
              && |r.value.pinMap| == |s.pinMap|
              && |r.value.pinMap[k]| == (if count < 0 then 0 else count)
              && (forall i :: 0 <= i < |r.value.pinMap[k]| ==> r.value.pinMap[k][i] == Unset)
              && (forall j :: 0 <= j < |s.pinMap| && j != k ==> r.value.pinMap[j] == s.pinMap[j])
              && r.value == s.(pinMap := r.value.pinMap)
  {
    var slots := seq(if count < 0 then 0 else count, _ => Unset);
    match PyIndex(|s.pinMap|, oid)
    case None => Err(Fault(IndexError))
    case Some(k) => Ok(s.(pinMap := s.pinMap[k := slots]))
  }

  /** `buttons_add`'s registry update: the pin lands at exactly `[oid][pos]`, and every
      other slot, of this OID or another, keeps its value. */
  function ButtonsAddOp(s: State, oid: int, pos: int, pin: int): (r: Result<State>)
    ensures r.Ok? <==>
              PyIndex(|s.pinMap|, oid).Some?
              && PyIndex(|s.pinMap[PyIndex(|s.pinMap|, oid).value]|, pos).Some?
    ensures r.Err? ==> r.error == Fault(IndexError)
    ensures r.Ok? ==>
              var k := PyIndex(|s.pinMap|, oid).value;
              var p := PyIndex(|s.pinMap[k]|, pos).value;
              && |r.value.pinMap| == |s.pinMap|
              && (forall j :: 0 <= j < |s.pinMap| ==> |r.value.pinMap[j]| == |s.pinMap[j]|)
              && r.value.pinMap[k][p] == pin
              && (forall j, i :: 0 <= j < |s.pinMap| && 0 <= i < |s.pinMap[j]| && (j, i) != (k, p) ==>
                    r.value.pinMap[j][i] == s.pinMap[j][i])
              && r.value == s.(pinMap := r.value.pinMap)
  {
    match PyIndex(|s.pinMap|, oid)
    case None => Err(Fault(IndexError))
    case Some(k) =>
      match PyIndex(|s.pinMap[k]|, pos)
      case None => Err(Fault(IndexError))
      case Some(p) => Ok(s.(pinMap := s.pinMap[k := s.pinMap[k][p := pin]]))
  }

  /** A `setup_input_pin(pin, pull_up)` call the interpreter issues. */
  datatype PinSetup = PinSetup(pin: int, pullUp: int)

  /** The state after some interpretation, with the pin setups it issued in order. */
  datatype Step = Step(state: State, setups: seq<PinSetup>)

  /** Carries out a parsed command. Only the mappings change; `buttons_add` issues one
      pin setup after the update, `buttons_query` does nothing at all. */
  function Apply(s: State, c: Command): (r: Result<Step>)
    ensures c.ButtonsQuery? ==> r == Ok(Step(s, []))
    ensures c.ConfigButtons? ==> (r.Ok? <==> PyIndex(|s.pinMap|, c.oid).Some?)
    ensures c.ConfigButtons? && r.Ok? ==> r.value.setups == []
    ensures c.ButtonsAdd? && r.Ok? ==> r.value.setups == [PinSetup(c.pin, c.pullUp)]
    ensures r.Err? ==> r.error == Fault(IndexError)
    ensures r.Ok? ==> r.value.state == s.(pinMap := r.value.state.pinMap)
    ensures r.Ok? ==> |r.value.state.pinMap| == |s.pinMap|
  {
    match c
    case ConfigButtons(oid, count) =>
      var s' :- ConfigButtonsOp(s, oid, count);
      Ok(Step(s', []))
    case ButtonsAdd(oid, pos, pullUp, pin) =>
      var s' :- ButtonsAddOp(s, oid, pos, pin);
      Ok(Step(s', [PinSetup(pin, pullUp)]))
    case ButtonsQuery => Ok(Step(s, []))
  }

  /** `_interpret_init_cmd`: parse, then apply. */
  function InterpretInitCmd(s: State, cmd: string): (r: Result<Step>)
    ensures ParseCommand(cmd).Err? ==> r == Err(ParseCommand(cmd).error)
    ensures r.Ok? ==> r.value.state == s.(pinMap := r.value.state.pinMap)
    ensures r.Ok? ==> |r.value.state.pinMap| == |s.pinMap|
  {
    var c :- ParseCommand(cmd);
    Apply(s, c)
  }

  /** A command in its rendered form is interpreted as the command itself. */
  lemma InterpretRendered(s: State, c: Command)
    ensures InterpretInitCmd(s, Render(c)) == Apply(s, c)
  {
    ParseRender(c);
  }

  /** `buttons_add` with a well-formed pin writes exactly `[oid][pos]` and issues the
      one pin setup, with the pull-up flag it was given. */
  lemma ButtonsAddInterpreted(s: State, oid: int, pos: int, pullUp: int, pin: int)
    ensures var r := InterpretInitCmd(s, Render(ButtonsAdd(oid, pos, pullUp, pin)));
            && (r.Ok? <==> ButtonsAddOp(s, oid, pos, pin).Ok?)
            && (r.Ok? ==> r.value == Step(ButtonsAddOp(s, oid, pos, pin).value, [PinSetup(pin, pullUp)]))
            && (r.Err? ==> r.error == Fault(IndexError))
  {
    InterpretRendered(s, ButtonsAdd(oid, pos, pullUp, pin));
  }

  /** Writing the same slot twice keeps the second pin. */
  lemma ButtonsAddOverwrites(s: State, oid: int, pos: int, pin1: int, pin2: int)
    requires ButtonsAddOp(s, oid, pos, pin1).Ok?
    ensures ButtonsAddOp(ButtonsAddOp(s, oid, pos, pin1).value, oid, pos, pin2) == ButtonsAddOp(s, oid, pos, pin2)
  {
    var s1 := ButtonsAddOp(s, oid, pos, pin1).value;
    var k := PyIndex(|s.pinMap|, oid).value;
    var p := PyIndex(|s.pinMap[k]|, pos).value;
    assert s1.pinMap == s.pinMap[k := s.pinMap[k][p := pin1]];
    assert PyIndex(|s1.pinMap|, oid) == Some(k);
    assert PyIndex(|s1.pinMap[k]|, pos) == Some(p);
    assert s1.pinMap[k] == s.pinMap[k][p := pin1];
    assert s1.pinMap[k][p := pin2] == s.pinMap[k][p := pin2];
    assert s1.pinMap[k := s1.pinMap[k][p := pin2]] == s.pinMap[k := s.pinMap[k][p := pin2]];
  }

  lemma InterpretTwo(s: State, c1: string, c2: string)
    requires InterpretInitCmd(s, c1).Ok?
    requires InterpretInitCmd(InterpretInitCmd(s, c1).value.state, c2).Ok?
    ensures var a := InterpretInitCmd(s, c1).value;
            var b := InterpretInitCmd(a.state, c2).value;
            InterpretAll(s, [c1, c2]) == Ok(Step(b.state, a.setups + b.setups))
  {
    assert [c1, c2][1..] == [c2];
    assert [c2][1..] == [];
    var a := InterpretInitCmd(s, c1).value;
    var b := InterpretInitCmd(a.state, c2).value;
    assert b.setups + [] == b.setups;
    assert InterpretAll(a.state, [c2]) == Chain(b, InterpretAll(b.state, []));
    assert InterpretAll(a.state, [c2]) == Ok(b);
  }

  /** Two `buttons_add` commands for the same slot: the later pin is the one kept, and
      both pin setups are issued in order. */
  lemma ButtonsAddLastWins(s: State, oid: int, pos: int, pullUp1: int, pin1: int, pullUp2: int, pin2: int)
    requires ButtonsAddOp(s, oid, pos, pin1).Ok?
    ensures var r := InterpretAll(s, [Render(ButtonsAdd(oid, pos, pullUp1, pin1)),
                                      Render(ButtonsAdd(oid, pos, pullUp2, pin2))]);
            && r.Ok?
            && r.value.state == ButtonsAddOp(s, oid, pos, pin2).value
            && r.value.setups == [PinSetup(pin1, pullUp1), PinSetup(pin2, pullUp2)]
  {
    var c1, c2 := Render(ButtonsAdd(oid, pos, pullUp1, pin1)), Render(ButtonsAdd(oid, pos, pullUp2, pin2));
    ButtonsAddInterpreted(s, oid, pos, pullUp1, pin1);
    var s1 := ButtonsAddOp(s, oid, pos, pin1).value;
    ButtonsAddOverwrites(s, oid, pos, pin1, pin2);
    ButtonsAddInterpreted(s1, oid, pos, pullUp2, pin2);
    InterpretTwo(s, c1, c2);
  }

  /** `buttons_query`, whatever `key=value` arguments it carries, changes nothing and
      issues no pin setup. */
  lemma QueryChangesNothing(s: State, cmd: string)
    requires |Split(cmd)| > 0 && Split(cmd)[0] == "buttons_query"
    requires forall k :: 1 <= k < |Split(cmd)| ==> '=' in Split(cmd)[k]
    ensures InterpretInitCmd(s, cmd) == Ok(Step(s, []))
  {
    var parts := Split(cmd);
    var args := parts[1..];
    assert forall k :: 0 <= k < |args| ==> '=' in args[k] by {
      forall k | 0 <= k < |args| ensures '=' in args[k] {
        assert args[k] == parts[k + 1];
      }
    }
    ParseCommandOf(cmd, parts, ParseArgs(args).value);
  }

  /** Continues after step `a` with the outcome `r` of what follows it. */
  function Chain(a: Step, r: Result<Step>): Result<Step> {
    match r
    case Err(e) => Err(e)
    case Ok(b) => Ok(Step(b.state, a.setups + b.setups))
  }

  /** Interprets commands in order, stopping at the first exception. */
  function InterpretAll(s: State, cmds: seq<string>): (r: Result<Step>)
    ensures r.Ok? ==> r.value.state == s.(pinMap := r.value.state.pinMap)
    ensures r.Ok? ==> |r.value.state.pinMap| == |s.pinMap|
    decreases |cmds|
  {
    if |cmds| == 0 then Ok(Step(s, []))
    else
      var a :- InterpretInitCmd(s, cmds[0]);
      Chain(a, InterpretAll(a.state, cmds[1..]))
  }

  lemma ChainAssoc(a: Step, m: Step, r: Result<Step>)
    ensures Chain(a, Chain(m, r)) == Chain(Step(m.state, a.setups + m.setups), r)
  {
    if r.Ok? {
      assert a.setups + (m.setups + r.value.setups) == (a.setups + m.setups) + r.value.setups;
    }
  }

  lemma ChainNothing(s: State, r: Result<Step>)
    ensures Chain(Step(s, []), r) == r
  {
    if r.Ok? {
      assert [] + r.value.setups == r.value.setups;
    }
  }

  lemma InterpretAllCons(s: State, cmds: seq<string>)
    requires |cmds| > 0
    ensures InterpretInitCmd(s, cmds[0]).Err? ==> InterpretAll(s, cmds) == Err(InterpretInitCmd(s, cmds[0]).error)
    ensures InterpretInitCmd(s, cmds[0]).Ok? ==>
              var a := InterpretInitCmd(s, cmds[0]).value;
              InterpretAll(s, cmds) == Chain(a, InterpretAll(a.state, cmds[1..]))
  {
  }

  /** Interpreting `xs + ys` is interpreting `xs`, then `ys` from where it left off. */
  lemma {:induction false} InterpretAllAppend(s: State, xs: seq<string>, ys: seq<string>)
    ensures InterpretAll(s, xs).Err? ==> InterpretAll(s, xs + ys) == InterpretAll(s, xs)
    ensures InterpretAll(s, xs).Ok? ==>
              var a := InterpretAll(s, xs).value;
              InterpretAll(s, xs + ys) == Chain(a, InterpretAll(a.state, ys))
    decreases |xs|
  {
    if |xs| == 0 {
      assert xs + ys == ys;
      assert InterpretAll(s, xs) == Ok(Step(s, []));
      ChainNothing(s, InterpretAll(s, ys));
    } else {
      var zs := xs + ys;
      assert zs[0] == xs[0];
      assert zs[1..] == xs[1..] + ys;
      InterpretAllCons(s, xs);
      InterpretAllCons(s, zs);
      var r0 := InterpretInitCmd(s, xs[0]);
      if r0.Ok? {
        var a := r0.value;
        InterpretAllAppend(a.state, xs[1..], ys);
        var rm := InterpretAll(a.state, xs[1..]);
        if rm.Ok? {
          ChainAssoc(a, rm.value, InterpretAll(rm.value.state, ys));
        }
      }
    }
  }

  // ---------------------------------------------------------------- config build

  /** Two states with the same run-time fields: counter, levels and overlap flag. */
  predicate SameRuntime(a: State, b: State) {
    a.ackCount == b.ackCount && a.lastIrq == b.lastIrq && a.lastPins == b.lastPins
    && a.timerRunning == b.timerRunning
  }

  /** One call of a config callback's script. */
  function RunCall(s: State, call: HostCall): (r: Result<State>)
    ensures Valid(s) && r.Ok? ==> Valid(r.value)
    ensures r.Ok? ==> r.value.configCallbacks == s.configCallbacks
    ensures r.Ok? ==> SameRuntime(s, r.value)
  {
    match call
    case AddConfigCmdCall(cmd, isInit, onRestart) => Ok(AddConfigCmdTo(s, cmd, isInit, onRestart))
    case CreateOidCall => Ok(CreateOid(s).state)
    case RegisterResponseCall(cb, name, oid) => RegisterResponse(s, cb, name, oid)
    case LookupCommandCall(msgformat) =>
      var _ :- LookupCommand(msgformat);
      Ok(s)
  }

  /** Runs one config callback's script, stopping at the first exception. */
  function RunCallback(s: State, calls: seq<HostCall>): (r: Result<State>)
    ensures Valid(s) && r.Ok? ==> Valid(r.value)
    ensures r.Ok? ==> r.value.configCallbacks == s.configCallbacks
    ensures r.Ok? ==> SameRuntime(s, r.value)
    decreases |calls|
  {
    if |calls| == 0 then Ok(s)
    else
      var s' :- RunCall(s, calls[0]);
      RunCallback(s', calls[1..])
  }

  /** Runs the config callbacks in registration order. */
  function RunCallbacks(s: State, cbs: seq<ConfigCallback>): (r: Result<State>)
    ensures Valid(s) && r.Ok? ==> Valid(r.value)
    ensures r.Ok? ==> r.value.configCallbacks == s.configCallbacks
    ensures r.Ok? ==> SameRuntime(s, r.value)
    decreases |cbs|
  {
    if |cbs| == 0 then Ok(s)
    else
      var s' :- RunCallback(s, cbs[0]);
      RunCallbacks(s', cbs[1..])
  }

  /** A callback's `add_config_cmd` calls extend each list by the commands filed under
      it, in call order. */
  lemma RunCallQueues(s: State, call: HostCall, l: CmdList)
    requires RunCall(s, call).Ok?
    ensures CmdsIn(RunCall(s, call).value, l) == CmdsIn(s, l) + QueuedBy(call, l)
  {
    if !call.AddConfigCmdCall? {
      assert CmdsIn(s, l) + [] == CmdsIn(s, l);
    }
  }

  lemma {:induction false} RunCallbackQueues(s: State, calls: seq<HostCall>, l: CmdList)
    requires RunCallback(s, calls).Ok?
    ensures CmdsIn(RunCallback(s, calls).value, l) == CmdsIn(s, l) + Queued(calls, l)
    decreases |calls|
  {
    if |calls| == 0 {
      assert CmdsIn(s, l) + [] == CmdsIn(s, l);
    } else {
      var s' := RunCall(s, calls[0]).value;
      RunCallQueues(s, calls[0], l);
      RunCallbackQueues(s', calls[1..], l);
      assert CmdsIn(s, l) + QueuedBy(calls[0], l) + Queued(calls[1..], l)
          == CmdsIn(s, l) + (QueuedBy(calls[0], l) + Queued(calls[1..], l));
    }
  }

  /** `_build_inputs_config`: first every config callback runs, then the config
      commands are interpreted, then the init commands, each list in insertion order.
      The setups of both passes are issued in that order. */
  function BuildInputsConfig(s: State): (r: Result<Step>)
    ensures Valid(s) && r.Ok? ==> Valid(r.value.state)
    ensures r.Ok? ==> SameRuntime(s, r.value.state)
  {
    var s1 :- RunCallbacks(s, s.configCallbacks);
    var a :- InterpretAll(s1, s1.configCmds);
    Chain(a, InterpretAll(a.state, a.state.initCmds))
  }

  /** The two passes of `_build_inputs_config` amount to interpreting the config list
      followed by the init list, as the callbacks left them; the restart list is not
      among them. */
  lemma BuildInputsConfigOrder(s: State)
    ensures BuildInputsConfig(s) ==
              match RunCallbacks(s, s.configCallbacks)
              case Err(e) => Err(e)
              case Ok(s1) => InterpretAll(s1, s1.configCmds + s1.initCmds)
  {
    match RunCallbacks(s, s.configCallbacks)
    case Err(e) =>
    case Ok(s1) => InterpretAllAppend(s1, s1.configCmds, s1.initCmds);
  }

  // ---------------------------------------------------------------- restart list

  /** Two states that differ at most in their restart lists. */
  predicate SameButRestart(a: State, b: State) {
    a.(restartCmds := []) == b.(restartCmds := [])
  }

  /** Two computations that end the same way, up to the restart list. */
  predicate Agree(r1: Result<State>, r2: Result<State>) {
    && r1.Ok? == r2.Ok?
    && (r1.Err? ==> r1.error == r2.error)
    && (r1.Ok? ==> SameButRestart(r1.value, r2.value))
  }

  predicate AgreeSteps(r1: Result<Step>, r2: Result<Step>) {
    && r1.Ok? == r2.Ok?
    && (r1.Err? ==> r1.error == r2.error)
    && (r1.Ok? ==> r1.value.setups == r2.value.setups && SameButRestart(r1.value.state, r2.value.state))
  }

  lemma RunCallRestartBlind(a: State, b: State, call: HostCall)
    requires SameButRestart(a, b)
    ensures Agree(RunCall(a, call), RunCall(b, call))
  {
    assert a.pinMap == b.pinMap && a.callbacks == b.callbacks;
  }

  lemma {:induction false} RunCallbackRestartBlind(a: State, b: State, calls: seq<HostCall>)
    requires SameButRestart(a, b)
    ensures Agree(RunCallback(a, calls), RunCallback(b, calls))
    decreases |calls|
  {
    if |calls| > 0 {
      RunCallRestartBlind(a, b, calls[0]);
      if RunCall(a, calls[0]).Ok? {
        RunCallbackRestartBlind(RunCall(a, calls[0]).value, RunCall(b, calls[0]).value, calls[1..]);
      }
    }
  }

  lemma {:induction false} RunCallbacksRestartBlind(a: State, b: State, cbs: seq<ConfigCallback>)
    requires SameButRestart(a, b)
    ensures Agree(RunCallbacks(a, cbs), RunCallbacks(b, cbs))
    decreases |cbs|
  {
    if |cbs| > 0 {
      RunCallbackRestartBlind(a, b, cbs[0]);
      if RunCallback(a, cbs[0]).Ok? {
        RunCallbacksRestartBlind(RunCallback(a, cbs[0]).value, RunCallback(b, cbs[0]).value, cbs[1..]);
      }
    }
  }

  lemma {:induction false} InterpretAllRestartBlind(a: State, b: State, cmds: seq<string>)
    requires SameButRestart(a, b)
    ensures AgreeSteps(InterpretAll(a, cmds), InterpretAll(b, cmds))
    decreases |cmds|
  {
    if |cmds| > 0 {
      assert a.pinMap == b.pinMap;
      var ra := InterpretInitCmd(a, cmds[0]);
      var rb := InterpretInitCmd(b, cmds[0]);
      if ParseCommand(cmds[0]).Ok? {
        var c := ParseCommand(cmds[0]).value;
        assert ra == Apply(a, c) && rb == Apply(b, c);
        match c
        case ConfigButtons(oid, count) =>
        case ButtonsAdd(oid, pos, pullUp, pin) =>
        case ButtonsQuery =>
      }
      if ra.Ok? {
        InterpretAllRestartBlind(ra.value.state, rb.value.state, cmds[1..]);
      }
    }
  }

  /** Restart commands are never interpreted: whatever the restart list holds, the
      configuration build raises the same exception or issues the same pin setups and
      leaves the same state apart from that list. */
  lemma RestartCmdsNeverInterpreted(s: State, restart: seq<string>)
    ensures AgreeSteps(BuildInputsConfig(s), BuildInputsConfig(s.(restartCmds := restart)))
  {
    var t := s.(restartCmds := restart);
    RunCallbacksRestartBlind(s, t, s.configCallbacks);
    var r1 := RunCallbacks(s, s.configCallbacks);
    var r2 := RunCallbacks(t, t.configCallbacks);
    if r1.Ok? {
      var s1, t1 := r1.value, r2.value;
      InterpretAllRestartBlind(s1, t1, s1.configCmds);
      var a1 := InterpretAll(s1, s1.configCmds);
      var a2 := InterpretAll(t1, t1.configCmds);
      if a1.Ok? {
        InterpretAllRestartBlind(a1.value.state, a2.value.state, a1.value.state.initCmds);
      }
    }
  }
}

=== FILE: polling.dfy ===
/** The run-time half of `EioI2cInputs` (extras/eio_i2c_inputs.py:43-55, 135-170):
    the interrupt handler, the polling timer event and the change dispatcher.
    The timer event is split at its one call into foreign code, `read_input_pins`,
    so that the overlap flag's value while the read is outstanding is visible:
    `PollStart` is everything before the read, `PollFinish` everything after it. */
module Polling {
  import opened Results
  import opened Bits
  import opened Inputs

  /** The two wake times the timer event returns: the reactor's NOW and NEVER. */
  datatype Wake = Now | Never

  /** One `buttons_state` notification, queued for the OID's callback. */
  datatype Notification = Notification(
    callback: CallbackRef,
    ackCount: Byte,
    oid: nat,
    state: seq<nat>,
    receiveTime: real)

  /** A state the dispatcher can compute state words for without a Python exception. */
  predicate Dispatchable(s: State) {
    Valid(s) && Filled(s)
  }

  /** The notifications for OIDs `from` onwards: one per OID holding a callback, in
      ascending OID order, each carrying `ack`, `t` and that OID's state word. */
  function Notifications(pinMap: seq<seq<int>>, callbacks: seq<Option<CallbackRef>>,
                         ack: Byte, pins: int, t: real, from: nat): (ns: seq<Notification>)
    requires |pinMap| == |callbacks| && AllMapped(pinMap) && from <= |callbacks|
    ensures forall k :: 0 <= k < |ns| ==>
              && from <= ns[k].oid < |callbacks|
              && callbacks[ns[k].oid] == Some(ns[k].callback)
              && ns[k].ackCount == ack
              && ns[k].receiveTime == t
              && ns[k].state == [StateWord(pins, pinMap[ns[k].oid])]
    ensures forall k, m :: 0 <= k < m < |ns| ==> ns[k].oid < ns[m].oid
    decreases |callbacks| - from
  {
    if from == |callbacks| then []
    else
      var rest := Notifications(pinMap, callbacks, ack, pins, t, from + 1);
      match callbacks[from]
      case None => rest
      case Some(cb) =>
        [Notification(cb, ack, from, [StateWord(pins, pinMap[from])], t)] + rest
  }

  lemma NotificationsHead(pinMap: seq<seq<int>>, callbacks: seq<Option<CallbackRef>>,
                          ack: Byte, pins: int, t: real, from: nat)
    requires |pinMap| == |callbacks| && AllMapped(pinMap) && from < |callbacks|
    requires callbacks[from].Some?
    ensures |Notifications(pinMap, callbacks, ack, pins, t, from)| > 0
    ensures Notifications(pinMap, callbacks, ack, pins, t, from)[0].oid == from
  {
  }

  lemma NotificationsTail(pinMap: seq<seq<int>>, callbacks: seq<Option<CallbackRef>>,
                          ack: Byte, pins: int, t: real, from: nat, k: nat)
    requires |pinMap| == |callbacks| && AllMapped(pinMap) && from < |callbacks|
    requires k < |Notifications(pinMap, callbacks, ack, pins, t, from + 1)|
    ensures var ns := Notifications(pinMap, callbacks, ack, pins, t, from);
            var j := if callbacks[from].Some? then k + 1 else k;
            j < |ns| && ns[j] == Notifications(pinMap, callbacks, ack, pins, t, from + 1)[k]
  {
  }

  /** No registered callback is skipped: every OID from `from` on that holds a
      callback gets a notification. */
  lemma {:induction false} NotificationsCover(pinMap: seq<seq<int>>, callbacks: seq<Option<CallbackRef>>,
                                              ack: Byte, pins: int, t: real, from: nat, o: nat)
    requires |pinMap| == |callbacks| && AllMapped(pinMap) && from <= o < |callbacks|
    requires callbacks[o].Some?
    ensures var ns := Notifications(pinMap, callbacks, ack, pins, t, from);
            exists k :: 0 <= k < |ns| && ns[k].oid == o
    decreases o - from
  {
    var ns := Notifications(pinMap, callbacks, ack, pins, t, from);
    if o == from {
      NotificationsHead(pinMap, callbacks, ack, pins, t, from);
      assert ns[0].oid == o;
    } else {
      var rest := Notifications(pinMap, callbacks, ack, pins, t, from + 1);
      NotificationsCover(pinMap, callbacks, ack, pins, t, from + 1, o);
      var k :| 0 <= k < |rest| && rest[k].oid == o;
      NotificationsTail(pinMap, callbacks, ack, pins, t, from, k);
      var j := if callbacks[from].Some? then k + 1 else k;
      assert ns[j].oid == o;
    }
  }

  datatype Dispatch = Dispatch(state: State, notifications: seq<Notification>)

  /** `_invoke_buttons_callbacks`: the counter advances once, wrapping at 256 (for the
      non-negative counter `& 0xff` is `% 256`), and every registered callback is sent
      the new count. The state word is computed for every OID, with or without a
      callback, so a negative pin index anywhere (an unset `-1` slot included) makes
      the right shift raise ValueError. */
  function InvokeButtonsCallbacks(s: State, t: real, pins: int): (r: Result<Dispatch>)
    requires Valid(s)
    ensures r.Err? <==> !Filled(s)
    ensures r.Err? ==> r.error == Fault(ValueError)
    ensures r.Ok? ==> r.value.state == s.(ackCount := (s.ackCount + 1) % 256)
    ensures r.Ok? ==>
              r.value.notifications == Notifications(s.pinMap, s.callbacks, r.value.state.ackCount, pins, t, 0)
  {
    if !Filled(s) then Err(Fault(ValueError))
    else
      var s' := s.(ackCount := (s.ackCount + 1) % 256);
      Ok(Dispatch(s', Notifications(s.pinMap, s.callbacks, s'.ackCount, pins, t, 0)))
  }

  datatype InterruptResult = InterruptResult(state: State, scheduleNow: bool)

  /** `_handle_interrupt`: the level is always recorded; an immediate poll is requested
      only for a non-zero level while no poll is in progress. */
  function HandleInterrupt(s: State, level: int): (r: InterruptResult)
    ensures r.state == s.(lastIrq := level)
    ensures r.scheduleNow <==> level != 0 && !s.timerRunning
  {
    InterruptResult(s.(lastIrq := level), level != 0 && !s.timerRunning)
  }

  /** `_schedule_update`, and so `_ready`: the poll timer is always set to wake NOW. */
  function ScheduleUpdate(): (w: Wake)
    ensures w == Now
  {
    Now
  }

  /** `_ready` with the guard `_handle_interrupt` applies before it schedules: NOW is
      requested only while no read is in flight. The read in flight then delivers the
      first reading in the ready handler's place. The second conjunct is always true;
      it is there only to name the `_schedule_update` call that the guard protects. */
  function GuardedReady(s: State): (schedule: bool)
    ensures schedule <==> !s.timerRunning
  {
    !s.timerRunning && ScheduleUpdate() == Now
  }

  /** The timer event up to the read: the overlap flag is raised. */
  function PollStart(s: State): (r: State)
    ensures r.timerRunning
    ensures r == s.(timerRunning := true)
  {
    s.(timerRunning := true)
  }

  datatype PollResult = PollResult(state: State, notifications: seq<Notification>, wake: Wake)

  /** The timer event after the read returned `pins`: dispatch only on a change, record
      the reading, clear the flag, and keep polling while the interrupt level is set. */
  function PollFinish(s: State, t: real, pins: int): (r: Result<PollResult>)
    requires Valid(s)
    ensures r.Err? <==> pins != s.lastPins && !Filled(s)
    ensures r.Err? ==> r.error == Fault(ValueError)
    ensures r.Ok? ==> (r.value.wake == Now <==> s.lastIrq != 0)
    ensures r.Ok? ==> !r.value.state.timerRunning && r.value.state.lastPins == pins
    ensures r.Ok? && pins == s.lastPins ==>
              r.value.notifications == [] && r.value.state == s.(timerRunning := false)
    ensures r.Ok? && pins != s.lastPins ==> r.value.state.ackCount == (s.ackCount + 1) % 256
    ensures r.Ok? && pins != s.lastPins ==>
              r.value.notifications == Notifications(s.pinMap, s.callbacks, r.value.state.ackCount, pins, t, 0)
    ensures r.Ok? ==>
              r.value.state == s.(ackCount := r.value.state.ackCount, lastPins := pins, timerRunning := false)
  {
    var d :- if pins != s.lastPins then InvokeButtonsCallbacks(s, t, pins) else Ok(Dispatch(s, []));
    var s' := d.state.(lastPins := pins, timerRunning := false);
    Ok(PollResult(s', d.notifications, if s'.lastIrq != 0 then Now else Never))
  }

  /** `_interrupt_update_event` with the read returning `pins`. */
  function InterruptUpdateEvent(s: State, t: real, pins: int): (r: Result<PollResult>)
    requires Valid(s)
    ensures r.Err? <==> pins != s.lastPins && !Filled(s)
    ensures r.Ok? ==> (r.value.wake == Now <==> s.lastIrq != 0)
    ensures r.Ok? ==> !r.value.state.timerRunning
  {
    PollFinish(PollStart(s), t, pins)
  }

  /** A repeated reading is a no-op poll: nothing is sent and the counter stays. */
  lemma RepeatedReadingIsQuiet(s: State, t1: real, t2: real, pins: int)
    requires Valid(s)
    requires InterruptUpdateEvent(s, t1, pins).Ok?
    ensures var first := InterruptUpdateEvent(s, t1, pins).value;
            var second := InterruptUpdateEvent(first.state, t2, pins);
            && second.Ok?
            && second.value.notifications == []
            && second.value.state == first.state
  {
  }

  /** Because the last reading starts at -1, the first non-negative reading always
      dispatches: every registered callback hears of it, with the next counter value. */
  lemma FirstReadingDispatches(s: State, t: real, pins: int)
    requires Dispatchable(s) && s.lastPins == Init().lastPins && pins >= 0
    ensures var r := InterruptUpdateEvent(s, t, pins);
            && r.Ok?
            && r.value.state.ackCount == (s.ackCount + 1) % 256
            && (forall o :: 0 <= o < |s.callbacks| && s.callbacks[o].Some? ==>
                  exists k :: 0 <= k < |r.value.notifications| && r.value.notifications[k].oid == o)
  {
    var r := InterruptUpdateEvent(s, t, pins).value;
    forall o | 0 <= o < |s.callbacks| && s.callbacks[o].Some?
      ensures exists k :: 0 <= k < |r.notifications| && r.notifications[k].oid == o
    {
      NotificationsCover(s.pinMap, s.callbacks, r.state.ackCount, pins, t, 0, o);
    }
  }

  /** A callback registered for an OID hears of the next changed reading: its
      notification names that OID and carries the new counter and the OID's state word. */
  lemma RegisteredCallbackNotified(s: State, cb: CallbackRef, oid: int, t: real, pins: int)
    requires Dispatchable(s) && PyIndex(|s.callbacks|, oid).Some? && pins != s.lastPins
    ensures var s' := RegisterResponse(s, cb, ResponseName, oid).value;
            var k := PyIndex(|s.callbacks|, oid).value;
            var r := InterruptUpdateEvent(s', t, pins);
            && r.Ok?
            && exists j :: 0 <= j < |r.value.notifications| && r.value.notifications[j].oid == k
                 && r.value.notifications[j].callback == cb
                 && r.value.notifications[j].ackCount == (s.ackCount + 1) % 256
                 && r.value.notifications[j].state == [StateWord(pins, s.pinMap[k])]
  {
    var s' := RegisterResponse(s, cb, ResponseName, oid).value;
    var k := PyIndex(|s.callbacks|, oid).value;
    var r := InterruptUpdateEvent(s', t, pins).value;
    NotificationsCover(s'.pinMap, s'.callbacks, r.state.ackCount, pins, t, 0, k);
    var j :| 0 <= j < |r.notifications| && r.notifications[j].oid == k;
    assert r.notifications[j].callback == cb;
  }

  /** The number of readings that differ from the one before, starting from `last`. */
  function Changes(last: int, readings: seq<int>): nat
    decreases |readings|
  {
    if |readings| == 0 then 0
    else (if readings[0] != last then 1 else 0) + Changes(readings[0], readings[1..])
  }

  /** Successive timer events on `readings`, all at time `t`; the final state and
      everything sent. */
  function PollAll(s: State, t: real, readings: seq<int>): (r: Dispatch)
    requires Dispatchable(s)
    ensures Dispatchable(r.state)
    ensures r.state.pinMap == s.pinMap && r.state.callbacks == s.callbacks
    decreases |readings|
  {
    if |readings| == 0 then Dispatch(s, [])
    else
      var first := InterruptUpdateEvent(s, t, readings[0]).value;
      var rest := PollAll(first.state, t, readings[1..]);
      Dispatch(rest.state, first.notifications + rest.notifications)
  }

  lemma PollAllCons(s: State, t: real, readings: seq<int>)
    requires Dispatchable(s) && |readings| > 0
    ensures InterruptUpdateEvent(s, t, readings[0]).Ok?
    ensures var first := InterruptUpdateEvent(s, t, readings[0]).value;
            && first.state.ackCount == (s.ackCount + (if readings[0] != s.lastPins then 1 else 0)) % 256
            && first.state.lastPins == readings[0]
            && Dispatchable(first.state)
            && PollAll(s, t, readings).state == PollAll(first.state, t, readings[1..]).state
  {
  }

  /** The counter moves once per changed reading and never otherwise, modulo 256,
      however many OIDs each dispatch reaches. */
  lemma {:induction false} AckCountsChanges(s: State, t: real, readings: seq<int>)
    requires Dispatchable(s)
    ensures PollAll(s, t, readings).state.ackCount == (s.ackCount + Changes(s.lastPins, readings)) % 256
    decreases |readings|
  {
    if |readings| > 0 {
      PollAllCons(s, t, readings);
      var first := InterruptUpdateEvent(s, t, readings[0]).value;
      AckCountsChanges(first.state, t, readings[1..]);
      var c := if readings[0] != s.lastPins then 1 else 0;
      var more := Changes(readings[0], readings[1..]);
      assert Changes(s.lastPins, readings) == c + more;
      var a: int := s.ackCount;
      var a1: int := first.state.ackCount;
      assert a1 == (a + c) % 256;
      assert PollAll(s, t, readings).state.ackCount == (a1 + more) % 256;
      ModAddMod(a + c, more);
    }
  }

  lemma ModAddMod(a: int, b: int)
    ensures ((a % 256) + b) % 256 == (a + b) % 256
  {
  }
}

=== FILE: pytext.dfy ===
/** The few Python string operations the command interpreter relies on:
    `str.split()` with no argument, `str.split('=', 1)` and `int()` on a token. */
module PyText {
  import opened Results

  /** The characters Python's `str.isspace()` accepts. */
  predicate IsSpace(c: char) {
    var n := c as int;
    n == 0x20 || 0x09 <= n <= 0x0D || 0x1C <= n <= 0x1F || n == 0x85 || n == 0xA0
    || n == 0x1680 || 0x2000 <= n <= 0x200A || n == 0x2028 || n == 0x2029
    || n == 0x202F || n == 0x205F || n == 0x3000
  }

  /** A token `str.split()` can produce: non-empty and free of whitespace. */
  predicate IsWord(t: string) {
    |t| > 0 && forall i :: 0 <= i < |t| ==> !IsSpace(t[i])
  }

  /** Length of the longest whitespace-free prefix of `s`. */
  function WordLength(s: string): (n: nat)
    ensures n <= |s|
    ensures forall i :: 0 <= i < n ==> !IsSpace(s[i])
    ensures n < |s| ==> IsSpace(s[n])
  {
    if |s| == 0 || IsSpace(s[0]) then 0 else 1 + WordLength(s[1..])
  }

  /** `s.split()`: the maximal runs of non-whitespace characters, in order. */
  function Split(s: string): (parts: seq<string>)
    ensures forall k :: 0 <= k < |parts| ==> IsWord(parts[k])
    decreases |s|
  {
    if |s| == 0 then []
    else if IsSpace(s[0]) then Split(s[1..])
    else
      var n := WordLength(s);
      [s[..n]] + Split(s[n..])
  }

  /** `" ".join(ws)`. */
  function Join(ws: seq<string>): string {
    if |ws| == 0 then ""
    else if |ws| == 1 then ws[0]
    else ws[0] + " " + Join(ws[1..])
  }

  lemma {:induction false} WordLengthOfWord(w: string, rest: string)
    requires IsWord(w)
    requires |rest| == 0 || IsSpace(rest[0])
    ensures WordLength(w + rest) == |w|
    decreases |w|
  {
    if |w| > 1 {
      assert (w + rest)[1..] == w[1..] + rest;
      WordLengthOfWord(w[1..], rest);
    } else {
      assert (w + rest)[1..] == rest;
    }
  }

  /** Splitting a single-space join of words gives the words back. */
  lemma {:induction false} SplitJoin(ws: seq<string>)
    requires forall k :: 0 <= k < |ws| ==> IsWord(ws[k])
    ensures Split(Join(ws)) == ws
    decreases |ws|
  {
    if |ws| == 1 {
      var w := ws[0];
      WordLengthOfWord(w, "");
      assert w + "" == w;
      assert w[|w|..] == "";
      assert Split(w) == [w[..|w|]] + Split(w[|w|..]);
    } else if |ws| > 1 {
      var w := ws[0];
      var tail := Join(ws[1..]);
      var s := w + " " + tail;
      assert s == w + (" " + tail);
      WordLengthOfWord(w, " " + tail);
      assert s[..|w|] == w;
      assert s[|w|..] == " " + tail;
      assert (" " + tail)[1..] == tail;
      SplitJoin(ws[1..]);
      assert Split(s) == [w] + Split(s[|w|..]);
      assert Split(" " + tail) == Split(tail);
      assert [ws[0]] + ws[1..] == ws;
    }
  }

  /** A whitespace character inside the first word's reach ends it there, whatever
      follows. */
  lemma {:induction false} WordLengthStops(a: string, b: string)
    requires WordLength(a) < |a|
    ensures WordLength(a + b) == WordLength(a)
    decreases |a|
  {
    if !IsSpace(a[0]) {
      assert (a + b)[1..] == a[1..] + b;
      WordLengthStops(a[1..], b);
    }
  }

  /** When the first word of `a` ends inside `a`, it is also the first word of `a + b`. */
  lemma SplitFirstWord(a: string, b: string)
    requires |a| > 0 && !IsSpace(a[0]) && WordLength(a) < |a|
    ensures Split(a + b) == [a[..WordLength(a)]] + Split(a[WordLength(a)..] + b)
    ensures Split(a) == [a[..WordLength(a)]] + Split(a[WordLength(a)..])
  {
    var m := WordLength(a);
    WordLengthStops(a, b);
    assert (a + b)[..m] == a[..m];
    assert (a + b)[m..] == a[m..] + b;
  }

  /** A word followed by whitespace or nothing is split off whole. */
  lemma SplitWholeWord(a: string, b: string)
    requires |a| > 0 && WordLength(a) == |a|
    requires |b| == 0 || IsSpace(b[0])
    ensures Split(a + b) == Split(a) + Split(b)
  {
    assert IsWord(a);
    SplitWord(a);
    var s := a + b;
    WordLengthOfWord(a, b);
    assert s[0] == a[0];
    assert s[..|a|] == a;
    assert s[|a|..] == b;
    assert Split(s) == [s[..WordLength(s)]] + Split(s[WordLength(s)..]);
  }

  /** No word straddles a boundary that whitespace marks: splitting `a + b` splits the
      two halves separately when `a` ends or `b` starts with whitespace. */
  lemma {:induction false} SplitAppend(a: string, b: string)
    requires |a| == 0 || |b| == 0 || IsSpace(b[0]) || IsSpace(a[|a| - 1])
    ensures Split(a + b) == Split(a) + Split(b)
    decreases |a|
  {
    if |a| == 0 {
      assert a + b == b;
    } else if IsSpace(a[0]) {
      assert (a + b)[1..] == a[1..] + b;
      SplitAppend(a[1..], b);
    } else if WordLength(a) < |a| {
      var m := WordLength(a);
      SplitFirstWord(a, b);
      SplitAppend(a[m..], b);
      assert [a[..m]] + (Split(a[m..]) + Split(b)) == ([a[..m]] + Split(a[m..])) + Split(b);
    } else {
      SplitWholeWord(a, b);
    }
  }

  /** A whitespace character separates: what lies on either side is split on its own. */
  lemma SplitSeparated(a: string, c: char, b: string)
    requires IsSpace(c)
    ensures Split(a + [c] + b) == Split(a) + Split(b)
  {
    SplitAppend(a + [c], b);
    SplitAppend(a, [c]);
    assert [c][1..] == [];
    assert Split([c]) == [];
    assert Split(a) + [] == Split(a);
  }

  /** A word splits into itself. */
  lemma SplitWord(w: string)
    requires IsWord(w)
    ensures Split(w) == [w]
  {
    SplitJoin([w]);
  }

  /** Index of the first `c` in `s`, or `|s|` when there is none. */
  function IndexOf(s: string, c: char): (i: nat)
    ensures i <= |s|
    ensures forall j :: 0 <= j < i ==> s[j] != c
    ensures i < |s| ==> s[i] == c
  {
    if |s| == 0 || s[0] == c then 0 else 1 + IndexOf(s[1..], c)
  }

  /** The part of `t` before its first '='; all of `t` when it has none. */
  function KeyOf(t: string): string {
    t[..IndexOf(t, '=')]
  }

  /** The part of `t` after its first '='; empty when it has none. */
  function ValueOf(t: string): string {
    var i := IndexOf(t, '=');
    if i < |t| then t[i + 1..] else ""
  }

  /** `t.split('=', 1)` when it yields a key and a value; None when `t` holds no '=',
      the case in which `dict()` raises ValueError. */
  function SplitKeyValue(t: string): (r: Option<(string, string)>)
    ensures r.None? <==> '=' !in t
    ensures r.Some? ==> t == r.value.0 + "=" + r.value.1 && '=' !in r.value.0
    ensures r.Some? ==> r.value == (KeyOf(t), ValueOf(t))
  {
    var i := IndexOf(t, '=');
    if i == |t| then None
    else
      assert t == t[..i] + "=" + t[i + 1..];
      Some((t[..i], t[i + 1..]))
  }

  /** The split happens at the first '=': a key free of '=' comes back whole. */
  lemma SplitKeyValueOf(key: string, value: string)
    requires '=' !in key
    ensures SplitKeyValue(key + "=" + value) == Some((key, value))
  {
    var t := key + "=" + value;
    assert t[|key|] == '=';
    var i := IndexOf(t, '=');
    assert forall j :: 0 <= j < |key| ==> t[j] == key[j];
    assert i == |key|;
    assert t[..i] == key;
    assert t[i + 1..] == value;
  }

  predicate IsDigit(c: char) {
    '0' <= c <= '9'
  }

  /** The body of a base-10 literal `int()` accepts: ASCII digits, with single
      underscores allowed between two digits. */
  predicate IsDigitBody(s: string) {
    && |s| > 0
    && IsDigit(s[0])
    && IsDigit(s[|s| - 1])
    && (forall i :: 0 <= i < |s| ==> IsDigit(s[i]) || s[i] == '_')
    && (forall i :: 0 <= i < |s| - 1 ==> !(s[i] == '_' && s[i + 1] == '_'))
  }

  /** Value of the digits of `s`, read left to right, skipping anything else. */
  function DigitsValue(s: string): nat {
    if |s| == 0 then 0
    else if IsDigit(s[|s| - 1]) then 10 * DigitsValue(s[..|s| - 1]) + (s[|s| - 1] as int - '0' as int)
    else DigitsValue(s[..|s| - 1])
  }

  /** `int(t)` on a whitespace-free token: an optional sign followed by a digit body;
      None where Python raises ValueError. */
  function PyInt(t: string): Option<int> {
    if |t| > 0 && (t[0] == '+' || t[0] == '-') then
      if IsDigitBody(t[1..]) then
        var v: int := DigitsValue(t[1..]);
        Some(if t[0] == '-' then -v else v)
      else None
    else if IsDigitBody(t) then Some(DigitsValue(t))
    else None
  }

  function DigitChar(d: nat): char
    requires d < 10
  {
    ('0' as int + d) as char
  }

  /** `str(n)` for a natural number. */
  function DecimalString(n: nat): (s: string)
    ensures |s| > 0
    ensures forall i :: 0 <= i < |s| ==> IsDigit(s[i])
  {
    if n < 10 then [DigitChar(n)] else DecimalString(n / 10) + [DigitChar(n % 10)]
  }

  /** `str(i)` for any integer. */
  function IntString(i: int): (s: string)
    ensures IsWord(s)
    ensures '=' !in s
  {
    if i < 0 then "-" + DecimalString(-i) else DecimalString(i)
  }

  lemma {:induction false} DigitsValueOfDecimal(n: nat)
    ensures DigitsValue(DecimalString(n)) == n
  {
    var s := DecimalString(n);
    if n >= 10 {
      DigitsValueOfDecimal(n / 10);
      assert s[..|s| - 1] == DecimalString(n / 10);
    }
  }

  lemma DecimalIsDigitBody(n: nat)
    ensures IsDigitBody(DecimalString(n))
  {
    var d := DecimalString(n);
    assert forall k :: 0 <= k < |d| - 1 ==> d[k] != '_';
  }

  lemma PyIntOfDecimal(n: nat)
    ensures PyInt(DecimalString(n)) == Some(n)
  {
    var d := DecimalString(n);
    DecimalIsDigitBody(n);
    DigitsValueOfDecimal(n);
    assert d[0] != '+' && d[0] != '-';
  }

  lemma PyIntOfNegative(n: nat)
    requires n > 0
    ensures PyInt("-" + DecimalString(n)) == Some(-(n as int))
  {
    var d := DecimalString(n);
    var t := "-" + d;
    assert t[1..] == d;
    DecimalIsDigitBody(n);
    DigitsValueOfDecimal(n);
  }

  /** `int(str(i)) == i`. */
  lemma PyIntOfIntString(i: int)
    ensures PyInt(IntString(i)) == Some(i)
  {
    if i < 0 {
      PyIntOfNegative(-i);
    } else {
      PyIntOfDecimal(i);
    }
  }
}

=== FILE: results.dfy ===
/** How a computation of the device ends: with a value, or with the exception that
    stopped it. Both wrappers work with Dafny's `:-` operator, so a failing step ends the
    enclosing computation the way an uncaught Python exception does. */
module Results {

  /** A value that may be absent. Absence stops a `:-` chain. */
  datatype Option<+T> = None | Some(value: T) {

    predicate IsFailure() {
      None?
    }

    function PropagateFailure<U>(): Option<U>
      requires None?
    {
      None
    }

    function Extract(): T
      requires Some?
    {
      value
    }
  }

  /** The Python runtime errors the device can trip over without raising them on purpose. */
  datatype FaultKind = IndexError | KeyError | ValueError

  /** An exception leaving the device: either a deliberate `pins.error` with its message,
      or a Python runtime error from indexing, a missing dictionary key or a failed parse. */
  datatype Error =
    | PinsError(message: string)
    | Fault(kind: FaultKind)

  /** The outcome of a device operation: its value, or the exception it raised. An
      exception stops a `:-` chain and is passed on unchanged. */
  datatype Result<+T> = Ok(value: T) | Err(error: Error) {

    predicate IsFailure() {
      Err?
    }

    function PropagateFailure<U>(): Result<U>
      requires Err?
    {
      Err(error)
    }

    function Extract(): T
      requires Ok?
    {
      value
    }
  }
}

=== FILE: scenarios.dfy ===
/** Worked examples: one `buttons` group of two buttons configured through a config
    callback, the readings it reports, the rejected inputs, the counter wrap, and the
    poll timer moving from idle to armed and back. */
module Scenarios {
  import opened Results
  import opened PyText
  import opened Commands
  import opened Bits
  import opened Inputs
  import opened Polling
  import opened Host

  const ConfigText: string := Render(ConfigButtons(0, 2))

  /** The `buttons_state` callback the host registers. */
  const Listener: CallbackRef := 7

  /** The `buttons_ack` format Klipper's `buttons` module looks up. */
  const AckTokens: seq<string> := ["buttons_ack", "oid=%c", "count=%c"]
  const AckFormat: string := Join(AckTokens)

  /** The `buttons_query` command for OID 0. The query slot and the clock conversion
      come from the device's stub methods, which return 0; 50 retransmits and no
      inversion are the `buttons` module's defaults. */
  const QueryTokens: seq<string> :=
    ["buttons_query", "oid=0", "clock=0", "rest_ticks=0", "retransmit_count=50", "invert=0"]
  const QueryText: string := Join(QueryTokens)

  /** The calls Klipper's `buttons` module makes from its config callback for one group
      with buttons on pins `p` (pull-up `u`) and `q` (pull-up `v`): the group goes to
      the config list, the buttons and the query to the init list. */
  function ButtonsScript(p: nat, u: int, q: nat, v: int): ConfigCallback {
    [ CreateOidCall,
      AddConfigCmdCall(ConfigText, false, false),
      AddConfigCmdCall(Render(ButtonsAdd(0, 0, u, p)), true, false),
      AddConfigCmdCall(Render(ButtonsAdd(0, 1, v, q)), true, false),
      LookupCommandCall(AckFormat),
      AddConfigCmdCall(QueryText, true, false),
      RegisterResponseCall(Listener, "buttons_state", 0) ]
  }

  function Registered(p: nat, u: int, q: nat, v: int): State {
    RegisterConfigCallback(Init(), ButtonsScript(p, u, q, v))
  }

  function Scripted(p: nat, u: int, q: nat, v: int): State {
    Registered(p, u, q, v).(configCmds := [ConfigText],
                            initCmds := [Render(ButtonsAdd(0, 0, u, p)), Render(ButtonsAdd(0, 1, v, q)), QueryText],
                            pinMap := [[]], callbacks := [Some(Listener)])
  }

  lemma RunCallbackCons(s: State, calls: seq<HostCall>)
    requires |calls| > 0 && RunCall(s, calls[0]).Ok?
    ensures RunCallback(s, calls) == RunCallback(RunCall(s, calls[0]).value, calls[1..])
  {
  }

  lemma AckFormatLooksUp()
    ensures LookupCommand(AckFormat).Ok?
  {
    assert IsWord("oid=%c") && IsWord("count=%c") && IsWord("buttons_ack");
    assert AckTokens == ["buttons_ack"] + AckTokens[1..];
    AckFormatAccepted("buttons_ack", AckTokens[1..]);
  }

  lemma QueryTextSplits()
    ensures Split(QueryText) == QueryTokens
  {
    assert IsWord("buttons_query") && IsWord("oid=0") && IsWord("clock=0");
    assert IsWord("rest_ticks=0") && IsWord("retransmit_count=50") && IsWord("invert=0");
    SplitJoin(QueryTokens);
  }

  /** A call that succeeds hands the rest of the script the state it leaves. */
  lemma RunCallbackStep(s: State, c: HostCall, rest: seq<HostCall>, s': State)
    requires RunCall(s, c) == Ok(s')
    ensures RunCallback(s, [c] + rest) == RunCallback(s', rest)
  {
    assert ([c] + rest)[0] == c;
    assert ([c] + rest)[1..] == rest;
  }

  /** The first four calls: the OID and the three commands. */
  lemma ScriptQueues(s0: State, a: string, b: string, rest: seq<HostCall>)
    requires s0.pinMap == [] && s0.callbacks == [] && s0.configCmds == [] && s0.initCmds == []
    ensures RunCallback(s0, [CreateOidCall, AddConfigCmdCall(ConfigText, false, false),
                             AddConfigCmdCall(a, true, false), AddConfigCmdCall(b, true, false)] + rest)
            == RunCallback(s0.(pinMap := [[]], callbacks := [None], configCmds := [ConfigText], initCmds := [a, b]), rest)
  {
    var c0, c1 := CreateOidCall, AddConfigCmdCall(ConfigText, false, false);
    var c2, c3 := AddConfigCmdCall(a, true, false), AddConfigCmdCall(b, true, false);
    var s1 := s0.(pinMap := [[]], callbacks := [None]);
    var s2 := s1.(configCmds := [ConfigText]);
    var s3 := s2.(initCmds := [a]);
    var s4 := s2.(initCmds := [a, b]);
    assert s1.configCmds + [ConfigText] == [ConfigText];
    assert s2.initCmds + [a] == [a];
    assert [a] + [b] == [a, b];
    RunCallbackStep(s0, c0, [c1] + ([c2] + ([c3] + rest)), s1);
    RunCallbackStep(s1, c1, [c2] + ([c3] + rest), s2);
    RunCallbackStep(s2, c2, [c3] + rest, s3);
    RunCallbackStep(s3, c3, rest, s4);
    assert [c0, c1, c2, c3] + rest == [c0] + ([c1] + ([c2] + ([c3] + rest)));
  }

  /** The last three calls: the acknowledgement lookup, the query and the listener. */
  lemma ScriptFinishes(s4: State, cs: seq<HostCall>)
    requires cs == [LookupCommandCall(AckFormat), AddConfigCmdCall(QueryText, true, false),
                    RegisterResponseCall(Listener, "buttons_state", 0)]
    requires s4.callbacks == [None]
    ensures RunCallback(s4, cs)
            == Ok(s4.(initCmds := s4.initCmds + [QueryText], callbacks := [Some(Listener)]))
  {
    AckFormatLooksUp();
    assert RunCall(s4, cs[0]) == Ok(s4);
    var s5 := s4.(initCmds := s4.initCmds + [QueryText]);
    assert RunCall(s4, cs[1]) == Ok(s5);
    assert PyIndex(1, 0) == Some(0);
    assert [None][0 := Some(Listener)] == [Some(Listener)];
    var s6 := s5.(callbacks := [Some(Listener)]);
    assert RunCall(s5, cs[2]) == Ok(s6);
    RunCallbackCons(s4, cs);
    RunCallbackCons(s4, cs[1..]);
    RunCallbackCons(s5, cs[2..]);
    assert cs[1..][1..] == cs[2..];
    assert cs[2..][1..] == [];
  }

  lemma ScriptRuns(p: nat, u: int, q: nat, v: int)
    ensures RunCallbacks(Registered(p, u, q, v), Registered(p, u, q, v).configCallbacks) == Ok(Scripted(p, u, q, v))
  {
    var a, b := Render(ButtonsAdd(0, 0, u, p)), Render(ButtonsAdd(0, 1, v, q));
    var cs := ButtonsScript(p, u, q, v);
    var tail := [LookupCommandCall(AckFormat), AddConfigCmdCall(QueryText, true, false),
                 RegisterResponseCall(Listener, "buttons_state", 0)];
    assert cs == [CreateOidCall, AddConfigCmdCall(ConfigText, false, false),
                  AddConfigCmdCall(a, true, false), AddConfigCmdCall(b, true, false)] + tail;
    var s0 := Registered(p, u, q, v);
    ScriptQueues(s0, a, b, tail);
    var s4 := s0.(pinMap := [[]], callbacks := [None], configCmds := [ConfigText], initCmds := [a, b]);
    ScriptFinishes(s4, tail);
    assert [a, b] + [QueryText] == [a, b, QueryText];
    assert RunCallback(s0, cs) == Ok(Scripted(p, u, q, v));
    var cbs: seq<ConfigCallback> := [cs];
    assert s0.configCallbacks == cbs;
    assert cbs[1..] == [];
  }

  lemma ConfigInterpreted(s: State)
    requires |s.pinMap| == 1
    ensures InterpretInitCmd(s, ConfigText) == Ok(Step(s.(pinMap := [[Unset, Unset]]), []))
  {
    InterpretRendered(s, ConfigButtons(0, 2));
    assert PyIndex(1, 0) == Some(0);
    assert seq(2, _ => Unset) == [Unset, Unset];
    assert s.pinMap[0 := [Unset, Unset]] == [[Unset, Unset]];
  }

  lemma AddInterpreted(s: State, pos: nat, u: int, p: nat, after: seq<int>)
    requires |s.pinMap| == 1 && pos < |s.pinMap[0]|
    requires after == s.pinMap[0][pos := p]
    ensures InterpretInitCmd(s, Render(ButtonsAdd(0, pos, u, p))) == Ok(Step(s.(pinMap := [after]), [PinSetup(p, u)]))
  {
    ButtonsAddInterpreted(s, 0, pos, u, p);
    assert PyIndex(1, 0) == Some(0) && PyIndex(|s.pinMap[0]|, pos) == Some(pos);
    assert s.pinMap[0 := after] == [after];
  }

  /** Both `buttons_add` commands, from the freshly configured group. */
  lemma AddsPass(s: State, p: nat, u: int, q: nat, v: int)
    requires s.pinMap == [[Unset, Unset]]
    ensures InterpretAll(s, [Render(ButtonsAdd(0, 0, u, p)), Render(ButtonsAdd(0, 1, v, q))])
            == Ok(Step(s.(pinMap := [[p, q]]), [PinSetup(p, u), PinSetup(q, v)]))
  {
    var a, b := Render(ButtonsAdd(0, 0, u, p)), Render(ButtonsAdd(0, 1, v, q));
    var s3 := s.(pinMap := [[p, Unset]]);
    var s4 := s.(pinMap := [[p, q]]);
    assert [Unset, Unset][0 := p] == [p, Unset];
    AddInterpreted(s, 0, u, p, [p, Unset]);
    assert [p, Unset][1 := q] == [p, q];
    AddInterpreted(s3, 1, v, q, [p, q]);
    assert s3.(pinMap := [[p, q]]) == s4;
    assert InterpretInitCmd(s, a) == Ok(Step(s3, [PinSetup(p, u)]));
    assert InterpretInitCmd(s3, b) == Ok(Step(s4, [PinSetup(q, v)]));
    InterpretTwo(s, a, b);
    assert [PinSetup(p, u)] + [PinSetup(q, v)] == [PinSetup(p, u), PinSetup(q, v)];
  }

  /** A list of one command is interpreted as that command. */
  lemma SinglePass(s: State, cmd: string)
    requires InterpretInitCmd(s, cmd).Ok?
    ensures InterpretAll(s, [cmd]) == InterpretInitCmd(s, cmd)
  {
    var a := InterpretInitCmd(s, cmd).value;
    InterpretAllCons(s, [cmd]);
    assert [cmd][1..] == [];
    assert a.setups + [] == a.setups;
  }

  lemma QueryArgsHaveEquals()
    ensures forall k :: 1 <= k < |QueryTokens| ==> '=' in QueryTokens[k]
  {
    assert '=' in "oid=0" && '=' in "clock=0" && '=' in "rest_ticks=0";
    assert '=' in "retransmit_count=50" && '=' in "invert=0";
  }

  /** The query at the end of the init list leaves the device as it is. */
  lemma QueryPass(s: State, cmd: string)
    requires Split(cmd) == QueryTokens
    ensures InterpretAll(s, [cmd]) == Ok(Step(s, []))
  {
    QueryArgsHaveEquals();
    QueryChangesNothing(s, cmd);
    SinglePass(s, cmd);
  }

  /** The config pass: the group alone. */
  lemma ConfigPass(p: nat, u: int, q: nat, v: int)
    ensures var s1 := Scripted(p, u, q, v);
            InterpretAll(s1, s1.configCmds) == Ok(Step(s1.(pinMap := [[Unset, Unset]]), []))
  {
    var s1 := Scripted(p, u, q, v);
    ConfigInterpreted(s1);
    SinglePass(s1, ConfigText);
  }

  /** The init pass: the two buttons, then the query. */
  lemma InitPass(s: State, p: nat, u: int, q: nat, v: int)
    requires s.pinMap == [[Unset, Unset]]
    ensures InterpretAll(s, [Render(ButtonsAdd(0, 0, u, p)), Render(ButtonsAdd(0, 1, v, q)), QueryText])
            == Ok(Step(s.(pinMap := [[p, q]]), [PinSetup(p, u), PinSetup(q, v)]))
  {
    var a, b := Render(ButtonsAdd(0, 0, u, p)), Render(ButtonsAdd(0, 1, v, q));
    AddsPass(s, p, u, q, v);
    var s4 := s.(pinMap := [[p, q]]);
    QueryTextSplits();
    QueryPass(s4, QueryText);
    InterpretAllAppend(s, [a, b], [QueryText]);
    assert [a, b] + [QueryText] == [a, b, QueryText];
    assert [PinSetup(p, u), PinSetup(q, v)] + [] == [PinSetup(p, u), PinSetup(q, v)];
  }

  /** The configuration build maps positions 0 and 1 to pins `p` and `q` and sets both
      pins up, in that order, with their pull-up flags: the group from the config list
      is in place before the init list's buttons are added. */
  lemma ScenarioBuild(p: nat, u: int, q: nat, v: int)
    ensures BuildInputsConfig(Registered(p, u, q, v))
            == Ok(Step(Scripted(p, u, q, v).(pinMap := [[p, q]]), [PinSetup(p, u), PinSetup(q, v)]))
  {
    ScriptRuns(p, u, q, v);
    ConfigPass(p, u, q, v);
    var s2 := Scripted(p, u, q, v).(pinMap := [[Unset, Unset]]);
    InitPass(s2, p, u, q, v);
    assert s2.initCmds == [Render(ButtonsAdd(0, 0, u, p)), Render(ButtonsAdd(0, 1, v, q)), QueryText];
    assert s2.(pinMap := [[p, q]]) == Scripted(p, u, q, v).(pinMap := [[p, q]]);
    assert [] + [PinSetup(p, u), PinSetup(q, v)] == [PinSetup(p, u), PinSetup(q, v)];
  }

  /** The device the build leaves. */
  function Built(p: nat, u: int, q: nat, v: int): State {
    Scripted(p, u, q, v).(pinMap := [[p, q]])
  }

  lemma OneNotification(p: nat, q: nat, ack: Byte, pins: int, t: real)
    ensures Notifications([[p, q]], [Some(Listener)], ack, pins, t, 0)
            == [Notification(Listener, ack, 0, [StateWord(pins, [p, q])], t)]
  {
    assert Notifications([[p, q]], [Some(Listener)], ack, pins, t, 1) == [];
  }

  /** The first poll: the level going active while idle arms the timer, the poll reads
      the group for the first time, reaches the listener with counter 1 and, the level
      still being set, arms the timer again. */
  lemma FirstPoll(p: nat, u: int, q: nat, v: int, reading: int)
    requires reading >= 0
    ensures var h0 := Start(Built(p, u, q, v));
            && Inv(h0)
            && var h1 := Next(h0, Interrupt(1.0, 1)).host;
            && h1.armed
            && var f1 := Next(h1, Fire(1.0)).host;
            && var d1 := Next(f1, ReadDone(reading));
            && d1.host.armed && !d1.host.reading && d1.host.dev.lastPins == reading
            && d1.notifications == [Notification(Listener, 1, 0, [StateWord(reading, [p, q])], 1.0)]
  {
    var h0 := Start(Built(p, u, q, v));
    assert Inv(h0);
    var h1 := Next(h0, Interrupt(1.0, 1)).host;
    var f1 := Next(h1, Fire(1.0)).host;
    assert f1.dev.lastPins == -1 && f1.dev.ackCount == 0 && f1.pollTime == 1.0;
    OneNotification(p, q, 1, reading, 1.0);
    var d1 := Next(f1, ReadDone(reading));
    assert d1.host.dev.lastPins == reading;
  }

  /** Once the level clears, the pending poll runs, finds the reading unchanged, sends
      nothing and leaves the timer parked. */
  lemma LastPoll(d: Host, reading: int)
    requires Inv(d) && d.armed && !d.reading && d.dev.lastPins == reading
    ensures var h2 := Next(d, Interrupt(1.5, 0)).host;
            && h2.armed
            && var f2 := Next(h2, Fire(2.0)).host;
            && var d2 := Next(f2, ReadDone(reading));
            && !d2.host.armed && !d2.host.reading
            && d2.notifications == []
  {
    var h2 := Next(d, Interrupt(1.5, 0)).host;
    var f2 := Next(h2, Fire(2.0)).host;
    assert f2.dev.lastIrq == 0 && f2.dev.lastPins == reading;
  }

  /** With the level going active while idle the timer is armed; after a poll with the
      level still active it is armed again; after a poll with it cleared it is idle.
      The first reading reaches the listener with counter 1, the repeat reaches no one. */
  lemma TimerCycle(p: nat, u: int, q: nat, v: int, reading: int)
    requires reading >= 0
    ensures var h0 := Start(Built(p, u, q, v));
            && Inv(h0)
            && var h1 := Next(h0, Interrupt(1.0, 1)).host;
            && h1.armed
            && var f1 := Next(h1, Fire(1.0)).host;
            && var d1 := Next(f1, ReadDone(reading));
            && d1.host.armed
            && d1.notifications == [Notification(Listener, 1, 0, [StateWord(reading, [p, q])], 1.0)]
            && var h2 := Next(d1.host, Interrupt(1.5, 0)).host;
            && h2.armed
            && var f2 := Next(h2, Fire(2.0)).host;
            && var d2 := Next(f2, ReadDone(reading));
            && !d2.host.armed && !d2.host.reading
            && d2.notifications == []
  {
    FirstPoll(p, u, q, v, reading);
    var h0 := Start(Built(p, u, q, v));
    var h1 := Next(h0, Interrupt(1.0, 1)).host;
    var f1 := Next(h1, Fire(1.0)).host;
    var d1 := Next(f1, ReadDone(reading));
    LastPoll(d1.host, reading);
  }

  /** Pins 0b101000 (bits 3 and 5 set) read as state word 0b11 for the group on pins
      3 and 5. */
  lemma ScenarioStateWord()
    ensures StateWord(0x28, [3, 5]) == 3
  {
  }

  /** Positions follow the mapping, not the pin numbers: with mapping [3, 5, 1], pin 1
      lands in bit 2 and pin 3 in bit 0; a reading of -1 gives every bit set, since
      Python's `>>` rounds down. */
  lemma MappingReorders()
    ensures StateWord(0x02, [3, 5, 1]) == 4
    ensures StateWord(0x0A, [3, 5, 1]) == 5
    ensures StateWord(-1, [3, 5, 1]) == 7
  {
  }

  /** An unknown command name is refused by name. */
  lemma FooBarRejected()
    ensures ParseCommand("foo_bar") == Err(PinsError("Command is not supported by I2C inputs: foo_bar"))
  {
    var w := "foo_bar";
    assert IsWord(w);
    SplitJoin([w]);
    assert Join([w]) == w;
    UnsupportedRejected(w);
  }

  /** A bare pin number, without the prefix, is always refused. */
  lemma BareNumberRejected(oid: int, pos: int, pullUp: int, n: nat)
    ensures ParseCommand(Join(ButtonsAddTokens(oid, pos, pullUp, IntString(n))))
            == Err(PinsError(WrongPinMessage(IntString(n))))
  {
    var tok := IntString(n);
    assert IsDigit(tok[0]);
    WrongPinRejected(oid, pos, pullUp, tok);
  }

  lemma FiveString()
    ensures IntString(5) == "5"
  {
  }

  /** Pin token `5`, written without the prefix, is refused with `Wrong pin: 5!`. */
  lemma BarePinRejected()
    ensures ParseCommand(Join(ButtonsAddTokens(0, 0, 1, "5"))) == Err(PinsError("Wrong pin: 5!"))
  {
    FiveString();
    BareNumberRejected(0, 0, 1, 5);
    assert WrongPinMessage("5") == "Wrong pin: 5!";
  }

  /** The counter wraps from 255 to 0 on the next change, and the notifications carry
      the wrapped value. */
  lemma AckWraps(s: State, t: real, pins: int)
    requires Dispatchable(s) && s.ackCount == 255 && pins != s.lastPins
    ensures var r := InterruptUpdateEvent(s, t, pins);
            && r.Ok? && r.value.state.ackCount == 0
            && (forall k :: 0 <= k < |r.value.notifications| ==> r.value.notifications[k].ackCount == 0)
  {
  }
}
